=== FILE: README.md ===
# E-commerce business rules in Dafny

This project models the business rules of an e-commerce backend written in
Python (FastAPI services over SQLAlchemy tables, with Redis and file storage
on the side). The tables, the key-value store and the file store become
immutable Dafny values:
- a table is the sequence of its rows in query order, or a map by id;
- the key-value store is a `map`;
- file storage is the set of paths written or deleted.

Every service operation is a pure transition. It returns either the new state
or a typed error (`Errors.Error`): one of the application's exceptions, or
MissingKey for the KeyError of a failed dictionary lookup.
An error means the state is unchanged, because the request's database
session commits only when the handler returns normally.

Modules, one per file:
- `Errors`: the error kinds, and `Option` and `Result`.
- `Items`: an order or cart line, and `Demand`. `Demand(items, p)` is the
  total quantity that a list of lines asks of product `p`, so a list of lines
  reads as a multiset of products.
- `CrudBase`: the generic operations `_get_one`, `_get_all`, `create`, `get`,
  `update` and `delete` over a keyed table, with lemmas about unique keys.
- `Stock`: the reservation loop of `create_order` and the restocking loop of
  `cancel_order` and `withdraw_order`. `Feasible` is an independent
  definition of when a cart fits the stock.
- `OrderService`: creating, cancelling and withdrawing orders.
- `CartModel`: the in-object cart (`Cart.add_item`, `remove_item` and
  `clear`).
- `CartStore` and `CartService`: the cart-line table keyed by
  (user, product), and the cart service on top of it.
- `TokenStore` and `TokenService`: the confirmation, recovery and refresh
  token tables, which hold one slot per user, and the service that issues,
  revokes and checks tokens.
- `ProductImages`: the per-product image list and the storage paths of its
  files.
- `ReviewService`: review creation, deletion and update, and when the
  product's rating is recomputed.
- `UserService`: registration with a one-shot confirmation code, and
  registration through Google.

Some modelled behaviour may be surprising:
- The reservation loop decrements stock before a later line can fail.
  `Stock.Reserve` keeps this partly reserved map in its `Rejected` outcome.
  The shop's stock stays unchanged only because the failed request is
  rolled back.
- `withdraw_order` does not look at the order's status. Withdrawing an order
  that was already cancelled credits its stock a second time.
- `change_product_images` checks only that the requested names are a subset
  of the current ones. It never checks the count, so a list with a repeated
  name can exceed the per-product limit.
- A confirmation code is consumed before the user row is created. If the
  e-mail is already registered, `create` reports no user and the code is
  still gone.

Two behaviours of the code that a reader might not expect:
- `create_order` has no empty-cart check, so an empty cart creates an empty
  order.
- `Creatable.create` does not raise on a uniqueness violation. It prints the
  integrity error and returns None.

## Model

| member | source | states |
|---|---|---|
| CrudBase.GetOne | backend/src/crud/base.py:13-15 | The result is the first stored row that the criteria select, as `.first()` returns it: it is selected and no earlier row is. It is None exactly when no stored row is selected. |
| CrudBase.GetAll | backend/src/crud/base.py:17-20 | A row is in the result exactly when it is in the table and satisfies the criterion, and the result is never longer than the table. |
| CrudBase.GetAllCounts | backend/src/crud/base.py:17-20 | The result holds each selected row as many times as the table does, and no unselected row. |
| CrudBase.GetAllNarrows | backend/src/crud/base.py:17-20 | Selecting with a stronger criterion from a selection gives the same rows as selecting with the stronger criterion from the whole table. |
| CrudBase.Get | backend/src/crud/base.py:39-42 | The result is the first stored row whose key equals the argument. It is None exactly when no stored row has that key. |
| CrudBase.GetUnique | backend/src/crud/base.py:39-42 | When keys are unique, a lookup by a row's key returns that row exactly when the row is stored. |
| CrudBase.Create | backend/src/crud/base.py:23-31 | If a row with the same key exists, the table is unchanged and no object is returned. Otherwise the object is appended and returned. Key uniqueness is preserved. |
| CrudBase.AppendRow | backend/src/crud/base.py:23-29 | Adding a row with a new key keeps keys unique. The row becomes the answer for its key, and every other key's lookup is unchanged. |
| CrudBase.ReplaceRow | backend/src/crud/base.py:52-56 | Writing non-key attributes of a fetched row keeps keys unique. The new row becomes the answer for its key, and no other lookup changes. |
| CrudBase.Patch | backend/src/crud/base.py:55-56 | Each field with a non-None new value is overwritten with it. Every other field keeps its presence and its value. |
| CrudBase.Update | backend/src/crud/base.py:50-56 | A missing key leaves the table unchanged. Otherwise only a row with that key is patched, and with unique keys it is patched. |
| CrudBase.Delete | backend/src/crud/base.py:64-69 | A missing key leaves the table unchanged. With unique keys, exactly the rows carrying that key go and uniqueness is kept. |
| CrudBase.DeleteRow | backend/src/crud/base.py:64-69 | After a delete, a lookup of the deleted key finds nothing, and every other key's lookup is unchanged. |
| Stock.Reserve | backend/src/service/order.py:19-28 | A rejection carries ResourceDoesNotExist or InsufficientStock. On success, each product's stock falls by exactly the total quantity the lines ask of it, and the set of products is unchanged. |
| Stock.Restock | backend/src/service/order.py:46-49 | Restocking succeeds exactly when every line's product still exists; otherwise it fails with a missing key. On success, each product gains exactly the lines' total quantity. |
| Stock.ReserveSucceedsIffFeasible | backend/src/service/order.py:19-28 | The reservation succeeds exactly when every line names an existing product and no product's total demand exceeds its stock. |
| Stock.ReserveReportsFirstBrokenLine | backend/src/service/order.py:19-26 | Take the first line that breaks feasibility. If it names a missing product, the error is ResourceDoesNotExist. If its product's cumulative demand exceeds stock, the error is InsufficientStock. |
| Stock.ReserveKeepsStockNonNegative | backend/src/service/order.py:25-28 | A successful reservation from non-negative stock leaves every product non-negative. Products that no line names are untouched. |
| Stock.ReserveThenRestock | backend/src/service/order.py:46-49 | Restocking the lines of a successful reservation gives back the original stock map exactly. |
| OrderService.NewOrder | backend/src/db/models.py:116-137 | A new order belongs to the caller, is Pending and unpaid, and has one line per input line with the same product and quantity. |
| OrderService.CreateOrder | backend/src/service/order.py:15-35 | Creation succeeds exactly when the cart is feasible; otherwise it fails with one of the two reservation errors. On success, the stock falls by the cart's demand, and an order holding exactly the cart is stored for the caller under the next id. No other order changes. |
| OrderService.CancelOrder | backend/src/service/order.py:37-51 | A missing order, a non-owner and a non-Pending order each give their own error. An owned Pending order is cancelled exactly when every product of its lines is still in stock, otherwise the error is MissingKey, and no other error occurs. On success, the order becomes Cancelled, its quantities return to stock, and nothing else changes. |
| OrderService.WithdrawOrder | backend/src/service/order.py:53-62 | Whatever the order's status, its quantities return to stock and the order is removed. The withdrawal fails exactly when the order is missing (ResourceDoesNotExist) or one of its products is gone (MissingKey). The order counter is unchanged. |
| OrderService.CreateOrderPreservesValid | backend/src/service/order.py:19-33 | Creation uses an unused id and never makes stock negative. |
| OrderService.CreateOrderReportsFirstBrokenLine | backend/src/service/order.py:19-26 | `create_order` reports the error of the first cart line that breaks the reservation. |
| OrderService.CreateThenCancelRestoresStock | backend/src/service/order.py:37-51 | Cancelling an order right after creating it succeeds, restores the earlier stock map exactly, and leaves the order Cancelled. |
| OrderService.CreateThenWithdrawRestoresShop | backend/src/service/order.py:53-62 | Withdrawing an order right after creating it restores both the stock and the order table exactly. |
| OrderService.CancelIsNotRepeatable | backend/src/service/order.py:42-44 | A second cancel of the same order fails with InvalidOrderStatus. |
| OrderService.WithdrawAfterCancelCreditsTwice | backend/src/service/order.py:53-61 | Withdrawing a cancelled order succeeds and credits its quantities to stock a second time. |
| OrderService.FailedCreateDiscardsPartialReservation | backend/src/service/order.py:19-28 | Example: the loop has already taken stock for the first line when the second line fails. `create_order` still reports the error, and the shop's stock is unchanged. |
| CartModel.FindLine | backend/src/db/models.py:93 | The result is the index of the first line for the product, or None exactly when no line names it. |
| CartModel.AddItem | backend/src/db/models.py:92-97 | An existing line for the product grows by the quantity and no line is added. Otherwise one line with the quantity is appended. The owner is kept. |
| CartModel.RemoveItem | backend/src/db/models.py:99-105 | A product with no line leaves the cart unchanged. A line whose quantity is at most the requested amount is dropped. Otherwise the line shrinks by the requested amount and the other lines are untouched. |
| CartModel.Clear | backend/src/db/models.py:107-108 | The cart keeps its owner and holds no quantity of any product. |
| CartModel.AddItemCounts | backend/src/db/models.py:92-97 | Adding raises the product's count by exactly the quantity and leaves every other product's count unchanged. |
| CartModel.AddItemKeepsProductsDistinct | backend/src/db/models.py:93-97 | Adding never creates a second line for a product. |
| CartModel.RemoveItemKeepsProductsDistinct | backend/src/db/models.py:99-105 | Removal never creates a second line for a product. |
| CartModel.RemoveItemCounts | backend/src/db/models.py:99-105 | The product's count drops to 0 when the request covers it, and otherwise by exactly the requested amount. Other counts are unchanged. |
| CartModel.AddThenRemoveRestoresCounts | backend/src/db/models.py:92-105 | Removing what was just added restores every product's count. |
| CartStore.Get | backend/src/crud/carts.py:12-14 | The result is a stored row matching both the user and the product. It is None exactly when no row matches both. |
| CartStore.GetAllByUserId | backend/src/crud/carts.py:16-17 | The result holds exactly the rows of the user, each with its multiplicity in the table. |
| CartStore.DeleteAllByUserId | backend/src/crud/carts.py:19-23 | Exactly the user's rows are removed, no row of the user remains, and every other user's rows read as before. |
| CartStore.OthersSurvive | backend/src/crud/carts.py:19-23 | Deleting one user's rows leaves every other user's selection unchanged. |
| CartStore.Delete | backend/src/crud/carts.py:25-29 | Only the row for (user, product) goes. Without such a row the table is unchanged, and key uniqueness is kept. |
| CartStore.ReplaceCounts | src/service/cart.py:27-28 | Changing the quantity of the existing (user, product) row sets that pair's count to the new quantity and keeps key uniqueness and every other pair's count. |
| CartStore.AppendCounts | src/service/cart.py:29-35 | Creating a row for a pair that has none sets that pair's count to the row's quantity and keeps key uniqueness and every other pair's count. |
| CartStore.DeleteCounts | backend/src/crud/carts.py:25-29 | Deleting the (user, product) row sets that pair's count to zero and keeps key uniqueness and every other pair's count. |
| CartService.GetCart | src/service/cart.py:14-21 | There is one output line per stored line of the user, with the same product and quantity and that row's line total. The cart total is the sum of the output lines' totals, which equals the sum of the line totals of the user's rows. |
| CartService.SumOfViews | src/service/cart.py:16-20 | The sum of the output lines' totals equals the sum of the stored lines' totals. |
| CartService.AddItem | src/service/cart.py:23-35 | An unknown product fails with ResourceDoesNotExist. An existing (user, product) line grows by the quantity. Otherwise a line with that quantity is created. |
| CartService.RemoveItem | src/service/cart.py:37-42 | With no line, nothing changes. A request for at least the line's quantity deletes the line. A smaller request shrinks it. |
| CartService.ClearCart | src/service/cart.py:44-45 | The user has no lines left, and every other user's lines are unchanged. |
| CartService.AddItemCounts | src/service/cart.py:23-35 | Adding keeps one row per (user, product), raises that pair's count by the quantity, and changes no other pair's count. |
| CartService.RemoveItemCounts | src/service/cart.py:37-42 | Removing keeps one row per pair and never leaves a zero line. The pair's count drops to 0 or by the quantity; other counts are unchanged. |
| CartService.AddThenRemoveRestoresCounts | src/service/cart.py:23-42 | Removing what was just added restores every (user, product) count. |
| TokenStore.Upsert | backend/src/crud/tokens.py:11-16 | An existing slot gets the new token string and no row is added. A user with no slot gets one. Afterwards the user's lookup returns the new row and other users' lookups are unchanged. |
| TokenStore.UpsertIdempotent | backend/src/crud/tokens.py:11-16 | Upserting the same token twice leaves the same table as upserting it once. |
| TokenStore.UpsertKind | backend/src/crud/tokens.py:19-31 | An upsert changes only the table of its own kind, and one slot per user is kept. |
| TokenStore.DeleteKind | backend/src/crud/tokens.py:19-31 | A delete changes only the table of its own kind, and one slot per user is kept. |
| TokenService.IsValid | backend/src/service/token.py:23-31 | A token is valid exactly when the user's stored token of that kind equals it. |
| TokenService.UpsertRefreshToken | backend/src/service/token.py:11-12 | After issuing, the refresh token is valid and the other two kinds are untouched. |
| TokenService.UpsertRecoveryToken | backend/src/service/token.py:14-15 | After issuing, the recovery token is valid and the other two kinds are untouched. |
| TokenService.RevokeRefreshToken | backend/src/service/token.py:17-18 | After revoking, no refresh token is valid for the user, and the other two kinds are untouched. |
| TokenService.RevokeRecoveryToken | backend/src/service/token.py:20-21 | After revoking, no recovery token is valid for the user, and the other two kinds are untouched. |
| TokenService.UpsertReplacesEarlierToken | backend/src/service/token.py:11-15 | After issuing, the new token is valid and any different token is not. Other users' validity is unchanged. |
| TokenService.RevokeInvalidates | backend/src/service/token.py:17-31 | Revoking invalidates every token of that kind for the user and for nobody else. |
| ProductImages.StoragePath | src/service/product.py:41 | The path is the product id in decimal, then "/", then the filename. |
| ProductImages.DecimalRoundTrip | src/service/product.py:41 | The decimal rendering of a product id reads back as the same id. |
| ProductImages.StoragePathInjective | src/service/product.py:41 | Two images have the same storage path only when they have the same product and the same filename. |
| ProductImages.AddProductImage | src/service/product.py:35-43 | An unknown product fails with ResourceDoesNotExist. A list already holding 10 images fails with LimitExceeded. Otherwise the name is appended at the end, the count grows by one, the file is saved at "{id}/{name}", and other products are untouched. |
| ProductImages.AddKeepsLimit | src/service/product.py:38-43 | Adding an image never takes a list past the limit. |
| ProductImages.ChangeProductImages | src/service/product.py:45-57 | A requested name that is not a current image fails with ResourceDoesNotExist. Otherwise the list becomes exactly the requested one, and the deleted paths are those of the current names not requested. |
| ProductImages.ChangeDeletesExactlyDropped | src/service/product.py:54-55 | A name's file is deleted exactly when the name was an image and is not requested. |
| ProductImages.ChangeSplitsNames | src/service/product.py:48-57 | Every old name is either kept in the new list or has its file deleted. |
| ProductImages.ChangeToCurrentIsNoOp | src/service/product.py:45-57 | Passing the current list back deletes nothing and changes nothing. |
| ProductImages.ChangeCanExceedLimit | src/service/product.py:45-57 | Example: a full list of ten copies of one name can be replaced by eleven copies, which exceeds the limit. |
| ReviewService.CreateReview | backend/src/service/review.py:28-48 | An unknown product fails with ResourceDoesNotExist. A second review by the same user of the same product fails with ResourceAlreadyExists. Otherwise the review is stored under the next id and the product's rating is recomputed. |
| ReviewService.DeleteReview | backend/src/service/review.py:64-80 | A missing review fails with ResourceDoesNotExist. A caller who is neither an admin nor the author fails with NotEnoughRights. Otherwise the review is removed and its product's rating is recomputed. |
| ReviewService.ApplyUpdate | backend/src/crud/base.py:55-56 | An update writes only the fields it carries. The author and the product never change. |
| ReviewService.UpdateMyReview | backend/src/service/review.py:82-114 | A missing review fails with ResourceDoesNotExist. Anyone but the author fails with NotEnoughRights, admins included. Otherwise only that review changes, and the rating is recomputed exactly when a new rating is given that differs from the one stored before the update. This is the intended comparison; see "## Findings". |
| ReviewService.UpdateMyReviewAsWritten | backend/src/service/review.py:97-111 | Fails exactly as `UpdateMyReview` does and writes the same board, but never asks for a recomputation, because it compares the new rating with the already-updated review. |
| ReviewService.AsWrittenMissesRatingChange | backend/src/service/review.py:106-111 | A rating changed from 3 to 5 changes the product's ratings, yet the as-written update asks for no recomputation. |
| ReviewService.CreatePreservesValid | backend/src/service/review.py:35-43 | After a create, each user still has at most one review per product, and every rating stays within 0..5. |
| ReviewService.DeletePreservesValid | backend/src/service/review.py:79 | A delete keeps stored reviews within bounds and unique per (user, product). |
| ReviewService.UpdatePreservesValid | backend/src/schemas/review.py:21-29 | A bounded update keeps every rating within 0..5 and every content within 1000 characters. |
| ReviewService.CreateRecomputesExactlyChanged | backend/src/service/review.py:41-44 | The product's ratings gain exactly the new rating. The service recomputes exactly the product whose ratings changed. |
| ReviewService.DeleteRecomputesExactlyChanged | backend/src/service/review.py:77-80 | A delete recomputes exactly the product whose ratings changed. |
| ReviewService.UpdateRecomputesExactlyChanged | backend/src/service/review.py:106-111 | An update recomputes exactly the product whose ratings changed. A content-only update, or one that repeats the old rating, recomputes nothing. |
| ReviewService.CreateTwiceRefused | backend/src/service/review.py:35-39 | A second review of the same product by the same user fails with ResourceAlreadyExists. |
| UserService.CodeKeyInjective | backend/src/service/user.py:16 | Two e-mails share a code key exactly when they are equal. |
| UserService.Truncate | backend/src/service/user.py:39 | The result is the prefix of the name of length min(length, 50). |
| UserService.RegisterUser | backend/src/service/user.py:15-26 | A missing code and a wrong code each fail with InvalidConfirmationCode and change nothing. A right code is consumed, other e-mails' codes are kept, and the user is created from the form fields. If the e-mail is already registered, no user is created. |
| UserService.OtherCodesKept | backend/src/service/user.py:23 | Consuming one e-mail's code keeps every other e-mail's code. |
| UserService.CodeIsOneShot | backend/src/service/user.py:18-23 | Repeating a successful registration fails with InvalidConfirmationCode. |
| UserService.RegisterUserUsingGoogle | backend/src/service/user.py:28-40 | A registered e-mail fails with ResourceAlreadyExists; otherwise an unverified e-mail fails with EmailNotConfirmed. Otherwise a passwordless user is added, carrying the provider id and the name cut to 50 characters. |
| UserService.GoogleRegistrationOnce | backend/src/service/user.py:29-30 | A second Google registration with the same account fails with ResourceAlreadyExists. |

## Left out

Not modelled, by cause:
- Row locking (`for_update=True`) and transaction isolation: these are
  concurrency. Only the sequential outcome is modelled, with every error
  leaving the state unchanged.
- Floating-point money and ratings: product final price, line and cart
  totals, and the average rating. A cart line's total is the abstract
  `lineTotal` parameter of `CartService.GetCart`, and rating recomputation
  is the `recompute` field of a review outcome.
- Other external systems: Stripe calls and payment webhooks, JWT encoding,
  bcrypt hashing, random code generation, SMTP and Celery tasks, Google
  OAuth, and the bytes written to file storage.
- The web layer: HTTP routers, dependency wiring, the mapping from
  exceptions to HTTP status codes, and the permission decorators.
- The admin status change of an order: it is a router-level overwrite with
  no rule in the order service.
- Foreign keys: a row referring to a missing user, address or product is not
  rejected. `CrudBase.Create` models only the unique-key violation.
- Database-generated ids: the user table is keyed by e-mail, and order and
  review ids come from a counter in the state.
- Read-only and pass-through service calls (order, product and user queries
  and product create/update/delete). They add no rule beyond `CrudBase`.
- The order construction as written: `create_order` calls `Order(...)`
  without the required `address_id` of `Order.__init__`
  (`backend/src/db/models.py:133`), and passes the cart's `Item` objects
  where `OrderItem(**item)` expects dicts, so as written the call raises
  TypeError. The model follows the evident intent: an order with the
  caller as owner, the cart's lines and the defaults; the address is not
  modelled.
- `OrderService.CreateOrder`: a cart naming one product on two lines is
  assumed never to reach the service. The reservation loop accepts such a
  cart, but its two order lines would share the `(order_id, product_id)`
  primary key of `order_items` (`backend/src/db/models.py:64`, `:113`), so
  the flush fails and nothing is stored, while the model stores the order.
  Carts come from the cart table, which holds one row per (user, product).

Modelled differently, by cause:
- The confirmation-code store maps the key to an integer. The Redis value is
  a decimal string written by the code-sending endpoint, and the service's
  `int(...)` reads it back.
- `CartService.GetCart`: the per-line totals come from the abstract
  `lineTotal`, because prices are floats.
- `ReviewService.CreateReview`, `ReviewService.UpdateMyReview` and
  `ReviewService.UpdateMyReviewAsWritten` require the schema bounds on their input (rating 0..5, content up to 1000 characters).
  The request schema enforces these before the service runs.
- `OrderService.CancelOrder` and `OrderService.WithdrawOrder`: a missing order
  is ResourceDoesNotExist. This is the "raise on miss" mode of the
  repository's `get`.
- `ProductImages.AddProductImage` and `ProductImages.ChangeProductImages`: an
  unknown product is ResourceDoesNotExist, the same "raise on miss"
  assumption. `src/service/product.py:36` and `:46` read `product.images`
  with no None check, while `src/service/cart.py:24` checks the same `get`
  for None. If `get` returns None there, an unknown product ends in an
  AttributeError instead of a typed error.
- `TokenService.UpsertRefreshToken` and
  `TokenService.UpsertRecoveryToken`: the service passes `(user_id, token)`,
  while `TokenCRUD.upsert` takes a row. The model upserts the row
  `TokenRow(user_id, token)`.
- `UserService.RegisterUserUsingGoogle` creates a user without a password,
  as the service does. The mapped `User` class in `backend/src/db/models.py`
  is from an older revision, with `username` and a non-null password, and is
  not followed.

## Findings

| source | as written | input that shows it | evidently intended | confidence | as-written member | corrected member |
|---|---|---|---|---|---|---|
| backend/src/service/review.py:97-111 | `rating_changed` compares the new rating with `review_to_update.rating`, read after `update_review_by_id` has run. The session keeps one object per primary key, so that object already holds the new rating. | The author updates a review's rating from 3 to 5. The comparison is `5 != 5`, and the product's average is not recomputed. | Compare with the rating stored before the update, so the product is recomputed exactly when its ratings changed. | medium, not executed. `update_review_by_id` is not part of this model; the finding assumes it writes through the session's instance, as `Updatable.update` does with `setattr`. | ReviewService.UpdateMyReviewAsWritten, ReviewService.AsWrittenMissesRatingChange | ReviewService.UpdateMyReview, ReviewService.UpdateRecomputesExactlyChanged |

=== FILE: cart_model.dfy ===
/** The cart object of the data model: a user's list of product lines with
    methods that add to, take from, and empty it. Read as a multiset of
    products (`Demand`), adding and removing are the multiset operations. */
module CartModel {
  import opened Errors
  import opened Items

  datatype Cart = Cart(owner: UserId, items: seq<Item>)

  /** Index of the first line for product `p`, as `next(...)` finds it. */
  function FindLine(items: seq<Item>, p: ProductId): (r: Option<nat>)
    ensures r.Some? ==> r.value < |items| && items[r.value].productId == p
    ensures r.Some? ==> forall j | 0 <= j < r.value :: items[j].productId != p
    ensures r.None? <==> forall j | 0 <= j < |items| :: items[j].productId != p
  {
    if |items| == 0 then None
    else if items[0].productId == p then Some(0)
    else match FindLine(items[1..], p)
      case None => None
      case Some(i) => Some(i + 1)
  }

  /** `add_item`: grow the existing line for the product, or append a new one. */
  function AddItem(c: Cart, p: ProductId, q: Quantity): (r: Cart)
    ensures r.owner == c.owner
    ensures FindLine(c.items, p).Some? ==>
              var i := FindLine(c.items, p).value;
              && |r.items| == |c.items|
              && r.items[i] == Item(p, c.items[i].quantity + q)
              && forall j | 0 <= j < |c.items| && j != i :: r.items[j] == c.items[j]
    ensures FindLine(c.items, p).None? ==> r.items == c.items + [Item(p, q)]
  {
    match FindLine(c.items, p)
    case Some(i) => c.(items := c.items[i := Item(p, c.items[i].quantity + q)])
    case None => c.(items := c.items + [Item(p, q)])
  }

  /** `remove_item`: a line holding no more than the requested quantity is
      dropped, a larger one is decremented, and a product without a line is
      ignored. */
  function RemoveItem(c: Cart, p: ProductId, q: Quantity): (r: Cart)
    ensures r.owner == c.owner
    ensures FindLine(c.items, p).None? ==> r == c
    ensures FindLine(c.items, p).Some? ==>
              var i := FindLine(c.items, p).value;
              if c.items[i].quantity <= q then r.items == c.items[..i] + c.items[i + 1..]
              else r.items == c.items[i := Item(p, c.items[i].quantity - q)]
  {
    match FindLine(c.items, p)
    case None => c
    case Some(i) =>
      if c.items[i].quantity <= q then c.(items := c.items[..i] + c.items[i + 1..])
      else c.(items := c.items[i := Item(p, c.items[i].quantity - q)])
  }

  /** `clear`: the cart keeps its owner and holds no lines. */
  function Clear(c: Cart): (r: Cart)
    ensures r.owner == c.owner
    ensures forall p :: Demand(r.items, p) == 0
  {
    c.(items := [])
  }

  /** Adding puts exactly `q` more units of `p` in the cart and leaves every
      other product's count alone. */
  lemma AddItemCounts(c: Cart, p: ProductId, q: Quantity, p': ProductId)
    ensures Demand(AddItem(c, p, q).items, p') == Demand(c.items, p') + (if p' == p then q else 0)
  {
    match FindLine(c.items, p)
    case Some(i) =>
      DemandReplace(c.items, i, Item(p, c.items[i].quantity + q), p');
    case None =>
      DemandAppend(c.items, [Item(p, q)], p');
      assert [Item(p, q)][1..] == [];
  }

  /** Adding never creates a second line for a product. */
  lemma AddItemKeepsProductsDistinct(c: Cart, p: ProductId, q: Quantity)
    requires DistinctProducts(c.items)
    ensures DistinctProducts(AddItem(c, p, q).items)
  {
  }

  /** Removing never creates a second line for a product. */
  lemma RemoveItemKeepsProductsDistinct(c: Cart, p: ProductId, q: Quantity)
    requires DistinctProducts(c.items)
    ensures DistinctProducts(RemoveItem(c, p, q).items)
  {
    match FindLine(c.items, p)
    case None =>
    case Some(i) =>
      if c.items[i].quantity <= q {
        var r := c.items[..i] + c.items[i + 1..];
        assert forall j | 0 <= j < |r| :: r[j] == if j < i then c.items[j] else c.items[j + 1];
      }
  }

  /** When the lines are distinct, removing takes `min(q, count)` units of
      `p` and leaves every other product's count alone. */
  lemma RemoveItemCounts(c: Cart, p: ProductId, q: Quantity, p': ProductId)
    requires DistinctProducts(c.items)
    ensures p' == p ==> Demand(RemoveItem(c, p, q).items, p) ==
                          if Demand(c.items, p) <= q then 0 else Demand(c.items, p) - q
    ensures p' != p ==> Demand(RemoveItem(c, p, q).items, p') == Demand(c.items, p')
  {
    match FindLine(c.items, p)
    case None =>
      DemandZero(c.items, p);
    case Some(i) =>
      DemandOfDistinctLine(c.items, i);
      if c.items[i].quantity <= q {
        DemandRemove(c.items, i, p');
        DemandRemove(c.items, i, p);
      } else {
        DemandReplace(c.items, i, Item(p, c.items[i].quantity - q), p');
        DemandReplace(c.items, i, Item(p, c.items[i].quantity - q), p);
      }
  }

  /** Removing what was just added gives back the cart's product counts. */
  lemma AddThenRemoveRestoresCounts(c: Cart, p: ProductId, q: Quantity, p': ProductId)
    requires DistinctProducts(c.items)
    ensures Demand(RemoveItem(AddItem(c, p, q), p, q).items, p') == Demand(c.items, p')
  {
    AddItemCounts(c, p, q, p');
    AddItemCounts(c, p, q, p);
    AddItemKeepsProductsDistinct(c, p, q);
    RemoveItemCounts(AddItem(c, p, q), p, q, p');
  }
}

=== FILE: cart_service.dfy ===
/** The cart service: reading a user's cart with its totals, and adding,
    removing and clearing lines in the cart-line table. */
module CartService {
  import opened Errors
  import opened Items
  import CrudBase
  import opened CartStore

  /** One line of the cart as returned to the client. */
  datatype LineView = LineView(productId: ProductId, quantity: Quantity, totalPrice: int)

  datatype CartView = CartView(items: seq<LineView>, totalPrice: int)

  function SumLines(items: seq<LineView>): int
  {
    if |items| == 0 then 0 else items[0].totalPrice + SumLines(items[1..])
  }

  function SumRows(rows: seq<CartRow>, lineTotal: CartRow -> int): int
  {
    if |rows| == 0 then 0 else lineTotal(rows[0]) + SumRows(rows[1..], lineTotal)
  }

  function Views(rows: seq<CartRow>, lineTotal: CartRow -> int): (r: seq<LineView>)
    ensures |r| == |rows|
    ensures forall i | 0 <= i < |rows| ::
              r[i] == LineView(rows[i].productId, rows[i].quantity, lineTotal(rows[i]))
  {
    seq(|rows|, i requires 0 <= i < |rows| =>
      LineView(rows[i].productId, rows[i].quantity, lineTotal(rows[i])))
  }

  /** `get_cart`: one output line per stored line of the user, and a total
      equal to the sum of the output lines' totals. A line's total is the
      catalog's current price times its quantity, left abstract here as
      `lineTotal`. */
  function GetCart(rows: seq<CartRow>, u: UserId, lineTotal: CartRow -> int): (r: CartView)
    ensures |r.items| == |GetAllByUserId(rows, u)|
    ensures forall i | 0 <= i < |r.items| ::
              && r.items[i].productId == GetAllByUserId(rows, u)[i].productId
              && r.items[i].quantity == GetAllByUserId(rows, u)[i].quantity
              && r.items[i].totalPrice == lineTotal(GetAllByUserId(rows, u)[i])
    ensures r.totalPrice == SumLines(r.items)
    ensures r.totalPrice == SumRows(GetAllByUserId(rows, u), lineTotal)
  {
    var lines := GetAllByUserId(rows, u);
    var items := Views(lines, lineTotal);
    SumOfViews(lines, lineTotal);
    CartView(items, SumRows(lines, lineTotal))
  }

  lemma {:induction false} SumOfViews(rows: seq<CartRow>, lineTotal: CartRow -> int)
    ensures SumLines(Views(rows, lineTotal)) == SumRows(rows, lineTotal)
    decreases |rows|
  {
    if |rows| > 0 {
      SumOfViews(rows[1..], lineTotal);
      assert Views(rows, lineTotal)[1..] == Views(rows[1..], lineTotal);
    }
  }

  /** `add_item`: an unknown product is refused; otherwise the user's line
      for the product grows by the quantity, or a line with that quantity is
      created. */
  function AddItem(rows: seq<CartRow>, products: set<ProductId>, u: UserId, item: Item): (r: Result<seq<CartRow>>)
    ensures item.productId !in products ==> r == Err(ResourceDoesNotExist)
    ensures item.productId in products ==> r.Ok?
    ensures r.Ok? && Get(rows, u, item.productId).None? ==>
              r.value == rows + [CartRow(u, item.productId, item.quantity)]
    ensures r.Ok? && Get(rows, u, item.productId).Some? ==>
              |r.value| == |rows| &&
              CartRow(u, item.productId, LineQuantity(rows, u, item.productId) + item.quantity) in r.value
  {
    if item.productId !in products then Err(ResourceDoesNotExist)
    else
      match CrudBase.FindKey(rows, Key, (u, item.productId))
      case Some(i) =>
        var r := rows[i := rows[i].(quantity := rows[i].quantity + item.quantity)];
        assert r[i] in r;
        Ok(r)
      case None =>
        Ok(CrudBase.Create(rows, Key, CartRow(u, item.productId, item.quantity)).0)
  }

  /** `remove_item`: without a line for the product nothing changes; a
      request for at least the line's quantity deletes the line; a smaller one
      decrements it. */
  function RemoveItem(rows: seq<CartRow>, u: UserId, item: Item): (r: seq<CartRow>)
    ensures Get(rows, u, item.productId).None? ==> r == rows
    ensures Get(rows, u, item.productId).Some? && item.quantity >= LineQuantity(rows, u, item.productId) ==>
              r == Delete(rows, u, item.productId)
    ensures Get(rows, u, item.productId).Some? && item.quantity < LineQuantity(rows, u, item.productId) ==>
              |r| == |rows| &&
              CartRow(u, item.productId, LineQuantity(rows, u, item.productId) - item.quantity) in r
  {
    match CrudBase.FindKey(rows, Key, (u, item.productId))
    case None => rows
    case Some(i) =>
      if item.quantity >= rows[i].quantity then Delete(rows, u, item.productId)
      else
        var r := rows[i := rows[i].(quantity := rows[i].quantity - item.quantity)];
        assert r[i] in r;
        r
  }

  /** `clear_cart`: delete every line of the user. */
  function ClearCart(rows: seq<CartRow>, u: UserId): (r: seq<CartRow>)
    ensures GetAllByUserId(r, u) == []
    ensures forall u' | u' != u :: GetAllByUserId(r, u') == GetAllByUserId(rows, u')
  {
    DeleteAllByUserId(rows, u)
  }

  /** Adding keeps one row per (user, product) and puts exactly `q` more
      units of the product in that user's cart, changing no other count. */
  lemma AddItemCounts(rows: seq<CartRow>, products: set<ProductId>, u: UserId, item: Item)
    requires Valid(rows)
    requires item.productId in products
    ensures Valid(AddItem(rows, products, u, item).value)
    ensures LineQuantity(AddItem(rows, products, u, item).value, u, item.productId)
              == LineQuantity(rows, u, item.productId) + item.quantity
    ensures forall u', p' | (u', p') != (u, item.productId) ::
              LineQuantity(AddItem(rows, products, u, item).value, u', p') == LineQuantity(rows, u', p')
  {
    match CrudBase.FindKey(rows, Key, (u, item.productId))
    case Some(i) =>
      var y := rows[i].(quantity := rows[i].quantity + item.quantity);
      assert AddItem(rows, products, u, item).value == rows[i := y];
      ReplaceCounts(rows, i, y);
    case None =>
      var y := CartRow(u, item.productId, item.quantity);
      assert AddItem(rows, products, u, item).value == rows + [y];
      AppendCounts(rows, y);
  }

  /** Removing keeps one row per (user, product), takes `min(q, count)`
      units of the product from that user's cart, and never leaves a row
      with quantity zero; no other count changes. */
  lemma RemoveItemCounts(rows: seq<CartRow>, u: UserId, item: Item)
    requires Valid(rows)
    ensures Valid(RemoveItem(rows, u, item))
    ensures LineQuantity(RemoveItem(rows, u, item), u, item.productId)
              == if item.quantity >= LineQuantity(rows, u, item.productId) then 0
                 else LineQuantity(rows, u, item.productId) - item.quantity
    ensures forall u', p' | (u', p') != (u, item.productId) ::
              LineQuantity(RemoveItem(rows, u, item), u', p') == LineQuantity(rows, u', p')
  {
    match CrudBase.FindKey(rows, Key, (u, item.productId))
    case None =>
    case Some(i) =>
      if item.quantity >= rows[i].quantity {
        assert RemoveItem(rows, u, item) == Delete(rows, u, item.productId);
        DeleteCounts(rows, u, item.productId);
      } else {
        var y := rows[i].(quantity := rows[i].quantity - item.quantity);
        assert RemoveItem(rows, u, item) == rows[i := y];
        ReplaceCounts(rows, i, y);
      }
  }

  /** Removing what was just added gives back every count of the cart table. */
  lemma AddThenRemoveRestoresCounts(rows: seq<CartRow>, products: set<ProductId>, u: UserId, item: Item,
                                    u': UserId, p': ProductId)
    requires Valid(rows)
    requires item.productId in products
    ensures LineQuantity(RemoveItem(AddItem(rows, products, u, item).value, u, item), u', p')
              == LineQuantity(rows, u', p')
  {
    AddItemCounts(rows, products, u, item);
    RemoveItemCounts(AddItem(rows, products, u, item).value, u, item);
  }
}

=== FILE: cart_store.dfy ===
/** The cart-line table: one row per (user, product) pair, the pair being the
    table's primary key. */
module CartStore {
  import opened Errors
  import opened Items
  import CrudBase

  datatype CartRow = CartRow(userId: UserId, productId: ProductId, quantity: Quantity)

  /** The primary key of a cart row. */
  function Key(r: CartRow): (UserId, ProductId)
  {
    (r.userId, r.productId)
  }

  /** The table keeps at most one row per (user, product). */
  predicate Valid(rows: seq<CartRow>)
  {
    CrudBase.UniqueKeys(rows, Key)
  }

  /** `get`: the row matching both the user and the product, if any. */
  function Get(rows: seq<CartRow>, u: UserId, p: ProductId): (r: Option<CartRow>)
    ensures r.Some? ==> r.value in rows && r.value.userId == u && r.value.productId == p
    ensures r.None? <==> forall x | x in rows :: x.userId != u || x.productId != p
  {
    CrudBase.Get(rows, Key, (u, p))
  }

  /** How many units of `p` user `u` has in the cart (0 without a row): the
      table read as one multiset of products per user. */
  function LineQuantity(rows: seq<CartRow>, u: UserId, p: ProductId): nat
  {
    match Get(rows, u, p)
    case Some(x) => x.quantity
    case None => 0
  }

  /** `get_all_by_user_id`: exactly the rows of user `u`, in table order. */
  function GetAllByUserId(rows: seq<CartRow>, u: UserId): (r: seq<CartRow>)
    ensures forall x :: x in r <==> x in rows && x.userId == u
    ensures forall x :: multiset(r)[x] == if x.userId == u then multiset(rows)[x] else 0
  {
    AllCounts(rows, (x: CartRow) => x.userId == u);
    CrudBase.GetAll(rows, (x: CartRow) => x.userId == u)
  }

  lemma AllCounts(rows: seq<CartRow>, crit: CartRow -> bool)
    ensures forall x :: multiset(CrudBase.GetAll(rows, crit))[x] == if crit(x) then multiset(rows)[x] else 0
  {
    forall x
      ensures multiset(CrudBase.GetAll(rows, crit))[x] == if crit(x) then multiset(rows)[x] else 0
    {
      CrudBase.GetAllCounts(rows, crit, x);
    }
  }

  /** `delete_all_by_user_id`: every row of `u` is deleted, every other row
      stays, and so every other user's cart reads as before. */
  function DeleteAllByUserId(rows: seq<CartRow>, u: UserId): (r: seq<CartRow>)
    ensures forall x :: x in r <==> x in rows && x.userId != u
    ensures GetAllByUserId(r, u) == []
    ensures forall u' | u' != u :: GetAllByUserId(r, u') == GetAllByUserId(rows, u')
  {
    var r := CrudBase.GetAll(rows, (x: CartRow) => x.userId != u);
    NoneLeft(r, u);
    OthersSurvive(rows, u);
    r
  }

  /** `delete`: only the (u, p) row goes; without one nothing changes. */
  function Delete(rows: seq<CartRow>, u: UserId, p: ProductId): (r: seq<CartRow>)
    ensures (forall x | x in rows :: Key(x) != (u, p)) ==> r == rows
    ensures Valid(rows) ==> Valid(r)
    ensures Valid(rows) ==> forall x :: x in r <==> x in rows && Key(x) != (u, p)
  {
    CrudBase.Delete(rows, Key, (u, p))
  }

  /** A table with no row of the user selects nothing for that user. */
  lemma NoneLeft(rows: seq<CartRow>, u: UserId)
    requires forall x | x in rows :: x.userId != u
    ensures GetAllByUserId(rows, u) == []
  {
  }

  /** Deleting one user's rows leaves every other user's selection as it was. */
  lemma OthersSurvive(rows: seq<CartRow>, u: UserId)
    ensures forall u' | u' != u ::
              GetAllByUserId(CrudBase.GetAll(rows, (x: CartRow) => x.userId != u), u') == GetAllByUserId(rows, u')
  {
    forall u' | u' != u
      ensures GetAllByUserId(CrudBase.GetAll(rows, (x: CartRow) => x.userId != u), u') == GetAllByUserId(rows, u')
    {
      CrudBase.GetAllNarrows(rows, (x: CartRow) => x.userId != u, (x: CartRow) => x.userId == u');
    }
  }
  /** Overwriting the (u, p) row with another of the same key sets that
      count to the new quantity and keeps every other count. */
  lemma ReplaceCounts(rows: seq<CartRow>, i: nat, y: CartRow)
    requires Valid(rows)
    requires i < |rows| && Key(y) == Key(rows[i])
    ensures Valid(rows[i := y])
    ensures LineQuantity(rows[i := y], y.userId, y.productId) == y.quantity
    ensures forall u', p' | (u', p') != Key(y) :: LineQuantity(rows[i := y], u', p') == LineQuantity(rows, u', p')
  {
    CrudBase.ReplaceRow(rows, Key, i, y);
  }

  /** Appending a row for a (u, p) without one sets that count to its
      quantity and keeps every other count. */
  lemma AppendCounts(rows: seq<CartRow>, y: CartRow)
    requires Valid(rows)
    requires Get(rows, y.userId, y.productId).None?
    ensures Valid(rows + [y])
    ensures LineQuantity(rows + [y], y.userId, y.productId) == y.quantity
    ensures forall u', p' | (u', p') != Key(y) :: LineQuantity(rows + [y], u', p') == LineQuantity(rows, u', p')
  {
    CrudBase.AppendRow(rows, Key, y);
  }

  /** Deleting the (u, p) row sets that count to zero and keeps every other. */
  lemma DeleteCounts(rows: seq<CartRow>, u: UserId, p: ProductId)
    requires Valid(rows)
    ensures Valid(Delete(rows, u, p))
    ensures LineQuantity(Delete(rows, u, p), u, p) == 0
    ensures forall u', p' | (u', p') != (u, p) :: LineQuantity(Delete(rows, u, p), u', p') == LineQuantity(rows, u', p')
  {
    CrudBase.DeleteRow(rows, Key, (u, p));
  }
}

=== FILE: crud_base.dfy ===
/** The generic create/retrieve/update/delete capabilities every entity
    store is built from, over a table modelled as the sequence of its rows in
    query order. A store names its `key`: the column its lookups compare with
    and that the database keeps unique. */
module CrudBase {
  import opened Errors

  /** Index of the first row satisfying `crit`, or None. */
  function FirstMatch<T>(rows: seq<T>, crit: T -> bool): (r: Option<nat>)
    ensures r.Some? ==> r.value < |rows| && crit(rows[r.value])
    ensures r.Some? ==> forall j | 0 <= j < r.value :: !crit(rows[j])
    ensures r.None? <==> forall j | 0 <= j < |rows| :: !crit(rows[j])
  {
    if |rows| == 0 then None
    else if crit(rows[0]) then Some(0)
    else match FirstMatch(rows[1..], crit)
      case None => None
      case Some(i) => Some(i + 1)
  }

  /** `_get_one`: the first row the criteria select, or None. */
  function GetOne<T>(rows: seq<T>, crit: T -> bool): (r: Option<T>)
    ensures r.Some? ==> r.value in rows && crit(r.value)
    ensures r.None? <==> forall x | x in rows :: !crit(x)
    ensures r.Some? ==> exists i | 0 <= i < |rows| :: rows[i] == r.value && forall j | 0 <= j < i :: !crit(rows[j])
  {
    match FirstMatch(rows, crit)
    case None => None
    case Some(i) => Some(rows[i])
  }

  /** `_get_all`: the rows the criteria select, in table order. */
  function GetAll<T(!new)>(rows: seq<T>, crit: T -> bool): (r: seq<T>)
    ensures forall x :: x in r <==> x in rows && crit(x)
    ensures |r| <= |rows|
  {
    if |rows| == 0 then []
    else
      assert forall x | x in rows[1..] :: x in rows;
      (if crit(rows[0]) then [rows[0]] else []) + GetAll(rows[1..], crit)
  }

  /** `_get_all` keeps each selected row as often as the table holds it and
      drops every other row. */
  lemma {:induction false} GetAllCounts<T(!new)>(rows: seq<T>, crit: T -> bool, x: T)
    ensures multiset(GetAll(rows, crit))[x] == if crit(x) then multiset(rows)[x] else 0
    decreases |rows|
  {
    if |rows| > 0 {
      assert rows == [rows[0]] + rows[1..];
      GetAllCounts(rows[1..], crit, x);
    }
  }

  /** Selecting from a concatenation selects from each part. */
  lemma {:induction false} GetAllAppend<T(!new)>(a: seq<T>, b: seq<T>, crit: T -> bool)
    ensures GetAll(a + b, crit) == GetAll(a, crit) + GetAll(b, crit)
    decreases |a|
  {
    if |a| == 0 {
      assert a + b == b;
    } else {
      var head := if crit(a[0]) then [a[0]] else [];
      assert (a + b)[0] == a[0] && (a + b)[1..] == a[1..] + b;
      assert GetAll(a + b, crit) == head + GetAll(a[1..] + b, crit);
      assert GetAll(a, crit) == head + GetAll(a[1..], crit);
      GetAllAppend(a[1..], b, crit);
    }
  }

  /** Selecting with a stronger criterion after a weaker one is selecting
      with the stronger one alone. */
  lemma {:induction false} GetAllNarrows<T(!new)>(rows: seq<T>, weak: T -> bool, strong: T -> bool)
    requires forall x :: strong(x) ==> weak(x)
    ensures GetAll(GetAll(rows, weak), strong) == GetAll(rows, strong)
    decreases |rows|
  {
    if |rows| > 0 {
      var head := if weak(rows[0]) then [rows[0]] else [];
      GetAllAppend(head, GetAll(rows[1..], weak), strong);
      GetAllNarrows(rows[1..], weak, strong);
      assert GetAll(head, strong) == if strong(rows[0]) then [rows[0]] else [] by {
        if weak(rows[0]) {
          assert head[1..] == [];
        }
      }
    }
  }

  /** The table holds at most one row per key value. */
  predicate UniqueKeys<T, K(==)>(rows: seq<T>, key: T -> K)
  {
    forall i, j | 0 <= i < j < |rows| :: key(rows[i]) != key(rows[j])
  }

  /** Index of the first row whose key equals `k`. */
  function FindKey<T, K(==)>(rows: seq<T>, key: T -> K, k: K): (r: Option<nat>)
    ensures r.Some? ==> r.value < |rows| && key(rows[r.value]) == k
    ensures r.Some? ==> forall j | 0 <= j < r.value :: key(rows[j]) != k
    ensures r.None? <==> forall j | 0 <= j < |rows| :: key(rows[j]) != k
  {
    FirstMatch(rows, (x: T) => key(x) == k)
  }

  /** `Retrievable.get`: the first row whose key equals `k`. */
  function Get<T, K(==)>(rows: seq<T>, key: T -> K, k: K): (r: Option<T>)
    ensures r.Some? ==> r.value in rows && key(r.value) == k
    ensures r.None? <==> forall x | x in rows :: key(x) != k
    ensures r.Some? <==> FindKey(rows, key, k).Some?
    ensures r.Some? ==> r.value == rows[FindKey(rows, key, k).value]
  {
    match FindKey(rows, key, k)
    case None => None
    case Some(i) => Some(rows[i])
  }

  /** With unique keys, a lookup finds a row exactly when that row is stored. */
  lemma GetUnique<T, K>(rows: seq<T>, key: T -> K, x: T)
    requires UniqueKeys(rows, key)
    ensures Get(rows, key, key(x)) == Some(x) <==> x in rows
  {
    if x in rows {
      var i :| 0 <= i < |rows| && rows[i] == x;
    }
  }

  /** Two tables with unique keys that hold the same rows for key `k` answer
      the same lookup for `k`. */
  lemma SameRowsSameGet<T, K>(a: seq<T>, b: seq<T>, key: T -> K, k: K)
    requires UniqueKeys(a, key) && UniqueKeys(b, key)
    requires forall x | key(x) == k :: x in a <==> x in b
    ensures Get(a, key, k) == Get(b, key, k)
  {
    if Get(a, key, k).Some? {
      GetUnique(b, key, Get(a, key, k).value);
    } else if Get(b, key, k).Some? {
      GetUnique(a, key, Get(b, key, k).value);
    }
  }

  /** Overwriting a row with one of the same key keeps the keys unique, makes
      the new row the answer for its key, and changes no other lookup. */
  lemma ReplaceRow<T, K>(rows: seq<T>, key: T -> K, i: nat, y: T)
    requires UniqueKeys(rows, key)
    requires i < |rows| && key(y) == key(rows[i])
    ensures UniqueKeys(rows[i := y], key)
    ensures Get(rows[i := y], key, key(y)) == Some(y)
    ensures forall k | k != key(y) :: Get(rows[i := y], key, k) == Get(rows, key, k)
  {
    var r := rows[i := y];
    assert forall j | 0 <= j < |r| :: key(r[j]) == key(rows[j]);
    GetUnique(r, key, y);
    forall k | k != key(y)
      ensures Get(r, key, k) == Get(rows, key, k)
    {
      forall x | key(x) == k
        ensures x in r <==> x in rows
      {
        if x in rows {
          var j :| 0 <= j < |rows| && rows[j] == x;
          assert r[j] == x;
        }
        if x in r {
          var j :| 0 <= j < |r| && r[j] == x;
          assert rows[j] == x;
        }
      }
      SameRowsSameGet(r, rows, key, k);
    }
  }

  /** Appending a row whose key the table lacks keeps the keys unique, makes
      the new row the answer for its key, and changes no other lookup. */
  lemma AppendRow<T, K>(rows: seq<T>, key: T -> K, y: T)
    requires UniqueKeys(rows, key)
    requires Get(rows, key, key(y)).None?
    ensures UniqueKeys(rows + [y], key)
    ensures Get(rows + [y], key, key(y)) == Some(y)
    ensures forall k | k != key(y) :: Get(rows + [y], key, k) == Get(rows, key, k)
  {
    var r := rows + [y];
    assert forall x | x in r :: x in rows || x == y;
    GetUnique(r, key, y);
    forall k | k != key(y)
      ensures Get(r, key, k) == Get(rows, key, k)
    {
      SameRowsSameGet(r, rows, key, k);
    }
  }

  /** `Creatable.create`: add the row, or, when the database reports an
      integrity violation (a row with the same key exists), leave the table
      as it was and return None instead of raising. */
  function Create<T, K(==)>(rows: seq<T>, key: T -> K, obj: T): (r: (seq<T>, Option<T>))
    ensures r.1.None? <==> exists x | x in rows :: key(x) == key(obj)
    ensures r.1.None? ==> r.0 == rows
    ensures r.1.Some? ==> r.1.value == obj && r.0 == rows + [obj]
    ensures UniqueKeys(rows, key) ==> UniqueKeys(r.0, key)
  {
    if Get(rows, key, key(obj)).Some? then (rows, None)
    else (rows + [obj], Some(obj))
  }

  /** A field-by-field view of an ORM object, as `setattr` sees it. */
  type Record<F, V> = map<F, V>

  /** Apply an update schema: every field whose new value is not None is
      overwritten, every other field keeps its value. */
  function Patch<F(!new), V>(obj: Record<F, V>, patch: map<F, Option<V>>): (r: Record<F, V>)
    ensures forall f | f in patch && patch[f].Some? :: f in r && r[f] == patch[f].value
    ensures forall f | f !in patch || patch[f].None? :: (f in r <==> f in obj)
    ensures forall f | f in obj && (f !in patch || patch[f].None?) :: r[f] == obj[f]
  {
    map f | f in obj.Keys + (set g | g in patch && patch[g].Some?) ::
      if f in patch && patch[f].Some? then patch[f].value else obj[f]
  }

  /** `Updatable.update`: patch the first row with key `k`; a missing key
      changes nothing. */
  function Update<F(!new), V, K(==)>(rows: seq<Record<F, V>>, key: Record<F, V> -> K, k: K,
                               patch: map<F, Option<V>>): (r: seq<Record<F, V>>)
    ensures |r| == |rows|
    ensures (forall x | x in rows :: key(x) != k) ==> r == rows
    ensures forall i | 0 <= i < |rows| ::
              r[i] == rows[i] || (key(rows[i]) == k && r[i] == Patch(rows[i], patch))
    ensures UniqueKeys(rows, key) ==>
              forall i | 0 <= i < |rows| && key(rows[i]) == k :: r[i] == Patch(rows[i], patch)
  {
    match FindKey(rows, key, k)
    case None => rows
    case Some(i) => rows[i := Patch(rows[i], patch)]
  }

  /** `Deletable.delete`: remove the first row with key `k`; a missing key
      changes nothing. */
  function Delete<T(!new), K(==)>(rows: seq<T>, key: T -> K, k: K): (r: seq<T>)
    ensures (forall x | x in rows :: key(x) != k) ==> r == rows
    ensures forall x | x in r :: x in rows
    ensures UniqueKeys(rows, key) ==> UniqueKeys(r, key)
    ensures UniqueKeys(rows, key) ==> forall x :: x in r <==> x in rows && key(x) != k
  {
    match FindKey(rows, key, k)
    case None => rows
    case Some(i) =>
      RemoveAtUnique(rows, key, i);
      rows[..i] + rows[i + 1..]
  }

  /** Removing row `i` from a table with unique keys keeps the keys unique and
      removes exactly the rows carrying row `i`'s key. */
  lemma RemoveAtUnique<T(!new), K>(rows: seq<T>, key: T -> K, i: nat)
    requires i < |rows|
    ensures forall x | x in rows[..i] + rows[i + 1..] :: x in rows
    ensures UniqueKeys(rows, key) ==> UniqueKeys(rows[..i] + rows[i + 1..], key)
    ensures UniqueKeys(rows, key) ==>
              forall x :: x in rows[..i] + rows[i + 1..] <==> x in rows && key(x) != key(rows[i])
  {
    var r := rows[..i] + rows[i + 1..];
    assert forall j | 0 <= j < |r| :: r[j] == if j < i then rows[j] else rows[j + 1];
    if UniqueKeys(rows, key) {
      forall x | x in rows && key(x) != key(rows[i])
        ensures x in r
      {
        var j :| 0 <= j < |rows| && rows[j] == x;
        assert j != i;
        if j < i { assert r[j] == x; } else { assert r[j - 1] == x; }
      }
    }
  }

  /** Deleting key `k` from a table with unique keys empties that key and
      changes no other lookup. */
  lemma DeleteRow<T(!new), K>(rows: seq<T>, key: T -> K, k: K)
    requires UniqueKeys(rows, key)
    ensures Get(Delete(rows, key, k), key, k).None?
    ensures forall k' | k' != k :: Get(Delete(rows, key, k), key, k') == Get(rows, key, k')
  {
    var r := Delete(rows, key, k);
    forall k' | k' != k
      ensures Get(r, key, k') == Get(rows, key, k')
    {
      SameRowsSameGet(r, rows, key, k');
    }
  }
}

=== FILE: errors.dfy ===
/** Failure-carrying datatypes shared by every service of the shop.

    A service call either returns its new state or raises one of the shop's
    domain exceptions. The request's database session commits only when the
    handler returns normally, so a failure carries no state: the caller keeps
    the state it had before the call. */
module Errors {

  /** The domain exceptions raised by the modelled services, plus the
      `KeyError` a dictionary lookup can let escape. */
  datatype Error =
    | ResourceDoesNotExist
    | ResourceAlreadyExists
    | NotEnoughRights
    | InvalidConfirmationCode
    | LimitExceeded
    | InsufficientStock
    | InvalidOrderStatus
    | EmailNotConfirmed
    | MissingKey

  /** A value that may be absent (Python's `None`). */
  datatype Option<+T> = None | Some(value: T)

  /** The outcome of a service call. */
  datatype Result<+T> = Ok(value: T) | Err(error: Error) {

    predicate IsFailure() {
      Err?
    }

    function PropagateFailure<U>(): Result<U>
      requires Err?
    {
      Err(error)
    }

    function Extract(): T
      requires Ok?
    {
      value
    }
  }
}

=== FILE: items.dfy ===
/** Product lines as the cart and order schemas accept them, and the
    keyed-multiset view of a list of lines. */
module Items {

  type ProductId = int
  type UserId = int

  /** The item schemas only accept strictly positive quantities. */
  type Quantity = q: int | q > 0 witness 1

  /** One line of a cart or an order: a product and how many of it. */
  datatype Item = Item(productId: ProductId, quantity: Quantity)

  /** How many units of product `p` the lines ask for altogether: the
      multiplicity of `p` when the lines are read as a multiset. */
  function Demand(items: seq<Item>, p: ProductId): nat
  {
    if |items| == 0 then 0
    else (if items[0].productId == p then items[0].quantity else 0) + Demand(items[1..], p)
  }

  /** No two lines name the same product. */
  predicate DistinctProducts(items: seq<Item>)
  {
    forall i, j | 0 <= i < j < |items| :: items[i].productId != items[j].productId
  }

  /** Demand is additive over concatenation. */
  lemma {:induction false} DemandAppend(a: seq<Item>, b: seq<Item>, p: ProductId)
    ensures Demand(a + b, p) == Demand(a, p) + Demand(b, p)
    decreases |a|
  {
    if |a| == 0 {
      assert a + b == b;
    } else {
      assert (a + b)[1..] == a[1..] + b;
      DemandAppend(a[1..], b, p);
    }
  }

  /** A product that no line names has no demand, and conversely. */
  lemma {:induction false} DemandZero(items: seq<Item>, p: ProductId)
    ensures Demand(items, p) == 0 <==> forall i | 0 <= i < |items| :: items[i].productId != p
    decreases |items|
  {
    if |items| > 0 {
      DemandZero(items[1..], p);
      assert forall i | 1 <= i < |items| :: items[i] == items[1..][i - 1];
    }
  }

  /** When the lines name distinct products, the demand for the product of
      line `i` is exactly that line's quantity. */
  lemma {:induction false} DemandOfDistinctLine(items: seq<Item>, i: nat)
    requires DistinctProducts(items)
    requires i < |items|
    ensures Demand(items, items[i].productId) == items[i].quantity
  {
    var p := items[i].productId;
    assert items == items[..i] + [items[i]] + items[i + 1..];
    DemandAppend(items[..i] + [items[i]], items[i + 1..], p);
    DemandAppend(items[..i], [items[i]], p);
    DemandZero(items[..i], p);
    DemandZero(items[i + 1..], p);
    assert Demand([items[i]], p) == items[i].quantity by {
      assert [items[i]][1..] == [];
    }
  }

  /** Replacing line `i` by a line for the same product changes only that
      product's demand, by the difference of the two quantities. */
  lemma {:induction false} DemandReplace(items: seq<Item>, i: nat, x: Item, p: ProductId)
    requires i < |items|
    requires x.productId == items[i].productId
    ensures p == x.productId ==>
              Demand(items[i := x], p) == Demand(items, p) - items[i].quantity + x.quantity
    ensures p != x.productId ==> Demand(items[i := x], p) == Demand(items, p)
  {
    assert items == items[..i] + [items[i]] + items[i + 1..];
    assert items[i := x] == items[..i] + [x] + items[i + 1..];
    DemandAppend(items[..i] + [items[i]], items[i + 1..], p);
    DemandAppend(items[..i], [items[i]], p);
    DemandAppend(items[..i] + [x], items[i + 1..], p);
    DemandAppend(items[..i], [x], p);
    assert [x][1..] == [] && [items[i]][1..] == [];
  }

  /** Dropping line `i` lowers only that product's demand, by the line's quantity. */
  lemma {:induction false} DemandRemove(items: seq<Item>, i: nat, p: ProductId)
    requires i < |items|
    ensures p == items[i].productId ==>
              Demand(items[..i] + items[i + 1..], p) == Demand(items, p) - items[i].quantity
    ensures p != items[i].productId ==> Demand(items[..i] + items[i + 1..], p) == Demand(items, p)
  {
    assert items == items[..i] + [items[i]] + items[i + 1..];
    DemandAppend(items[..i] + [items[i]], items[i + 1..], p);
    DemandAppend(items[..i], [items[i]], p);
    DemandAppend(items[..i], items[i + 1..], p);
    assert [items[i]][1..] == [];
  }
}

=== FILE: orders.dfy ===
/** The order workflow: turning a cart into an order while reserving stock,
    cancelling a pending order, and withdrawing an order after a failed
    payment. Each operation is a transition of the shop's state; a failure
    leaves the state as it was, because the request's session never commits. */
module OrderService {
  import opened Errors
  import opened Items
  import opened Stock

  type OrderId = int

  /** Order statuses, in the order the enumeration declares them. */
  datatype OrderStatus = Pending | Confirmed | Shipped | Delivered | Cancelled

  datatype Order = Order(owner: UserId, items: seq<Item>, status: OrderStatus, isPaid: bool)

  /** Stock per product, the order table, and the next identifier the
      database's sequence hands out. */
  datatype Shop = Shop(stock: StockMap, orders: map<OrderId, Order>, nextOrderId: OrderId)

  /** Every stored order has an identifier the sequence already issued, and
      no product's stock is negative. */
  predicate Valid(s: Shop)
  {
    && (forall id | id in s.orders :: id < s.nextOrderId)
    && NonNegative(s.stock)
  }

  /** A freshly constructed order: one order line per input line, owned by
      the caller, pending and unpaid by default. */
  function NewOrder(owner: UserId, lines: seq<Item>): (o: Order)
    ensures o.status == Pending && !o.isPaid
    ensures o.owner == owner
    ensures |o.items| == |lines|
    ensures forall i | 0 <= i < |lines| ::
              o.items[i].productId == lines[i].productId && o.items[i].quantity == lines[i].quantity
  {
    Order(owner, seq(|lines|, i requires 0 <= i < |lines| => Item(lines[i].productId, lines[i].quantity)), Pending, false)
  }

  /** `create_order`: reserve every line's quantity, then store a new order
      for the caller holding exactly the cart's lines. */
  function CreateOrder(s: Shop, userId: UserId, cart: seq<Item>): (r: Result<(Shop, OrderId)>)
    ensures r.Ok? <==> Feasible(s.stock, cart)
    ensures r.Err? ==> r.error == ResourceDoesNotExist || r.error == InsufficientStock
    ensures r.Ok? ==> r.value.1 == s.nextOrderId && r.value.0.nextOrderId > s.nextOrderId
    ensures r.Ok? ==> r.value.0.stock.Keys == s.stock.Keys
    ensures r.Ok? ==> forall p | p in s.stock :: r.value.0.stock[p] == s.stock[p] - Demand(cart, p)
    ensures r.Ok? ==> r.value.0.orders.Keys == s.orders.Keys + {r.value.1}
    ensures r.Ok? ==> r.value.0.orders[r.value.1] == Order(userId, cart, Pending, false)
    ensures r.Ok? ==> forall id | id in s.orders && id != r.value.1 :: r.value.0.orders[id] == s.orders[id]
  {
    ReserveSucceedsIffFeasible(s.stock, cart);
    match Reserve(s.stock, cart)
    case Rejected(e, _) => Err(e)
    case Reserved(stock) =>
      var id := s.nextOrderId;
      var o := NewOrder(userId, cart);
      assert o.items == cart;
      Ok((Shop(stock, s.orders[id := o], id + 1), id))
  }

  /** `cancel_order`: only the owner may cancel, and only a pending order;
      the reserved quantities go back to stock and the order is kept with
      status Cancelled. */
  function CancelOrder(s: Shop, orderId: OrderId, userId: UserId): (r: Result<Shop>)
    ensures orderId !in s.orders ==> r == Err(ResourceDoesNotExist)
    ensures orderId in s.orders && s.orders[orderId].owner != userId ==> r == Err(NotEnoughRights)
    ensures (orderId in s.orders && s.orders[orderId].owner == userId &&
             s.orders[orderId].status != Pending) ==> r == Err(InvalidOrderStatus)
    ensures r.Ok? ==> orderId in s.orders && s.orders[orderId].owner == userId
                      && s.orders[orderId].status == Pending
    ensures r.Ok? ==> r.value.orders == s.orders[orderId := s.orders[orderId].(status := Cancelled)]
    ensures r.Ok? ==> r.value.stock.Keys == s.stock.Keys
    ensures r.Ok? ==> forall p | p in s.stock ::
                        r.value.stock[p] == s.stock[p] + Demand(s.orders[orderId].items, p)
    ensures r.Ok? ==> r.value.nextOrderId == s.nextOrderId
    ensures (orderId in s.orders && s.orders[orderId].owner == userId && s.orders[orderId].status == Pending) ==>
              (r.Ok? <==> forall i | 0 <= i < |s.orders[orderId].items| ::
                            s.orders[orderId].items[i].productId in s.stock)
    ensures r.Err? ==> r.error == ResourceDoesNotExist || r.error == NotEnoughRights
                       || r.error == InvalidOrderStatus || r.error == MissingKey
    ensures (orderId in s.orders && s.orders[orderId].owner == userId && s.orders[orderId].status == Pending
             && r.Err?) ==> r.error == MissingKey
  {
    if orderId !in s.orders then Err(ResourceDoesNotExist)
    else
      var order := s.orders[orderId];
      if order.owner != userId then Err(NotEnoughRights)
      else if order.status != Pending then Err(InvalidOrderStatus)
      else
        var stock :- Restock(s.stock, order.items);
        Ok(s.(stock := stock, orders := s.orders[orderId := order.(status := Cancelled)]))
  }

  /** `withdraw_order`: whatever the order's status, its quantities go back
      to stock and the order is deleted. */
  function WithdrawOrder(s: Shop, orderId: OrderId): (r: Result<Shop>)
    ensures orderId !in s.orders ==> r == Err(ResourceDoesNotExist)
    ensures r.Err? ==> r.error == ResourceDoesNotExist || r.error == MissingKey
    ensures orderId in s.orders && r.Err? ==> r.error == MissingKey
    ensures r.Ok? ==> r.value.nextOrderId == s.nextOrderId
    ensures r.Ok? ==> orderId in s.orders
    ensures r.Ok? ==> r.value.orders == s.orders - {orderId}
    ensures r.Ok? ==> r.value.stock.Keys == s.stock.Keys
    ensures r.Ok? ==> forall p | p in s.stock ::
                        r.value.stock[p] == s.stock[p] + Demand(s.orders[orderId].items, p)
    ensures orderId in s.orders ==>
              (r.Ok? <==> forall i | 0 <= i < |s.orders[orderId].items| ::
                            s.orders[orderId].items[i].productId in s.stock)
  {
    if orderId !in s.orders then Err(ResourceDoesNotExist)
    else
      var stock :- Restock(s.stock, s.orders[orderId].items);
      Ok(s.(stock := stock, orders := s.orders - {orderId}))
  }

  /** Creating an order keeps the shop valid: the new identifier was free,
      and no product's stock goes below zero. */
  lemma CreateOrderPreservesValid(s: Shop, userId: UserId, cart: seq<Item>)
    requires Valid(s)
    requires CreateOrder(s, userId, cart).Ok?
    ensures Valid(CreateOrder(s, userId, cart).value.0)
    ensures CreateOrder(s, userId, cart).value.1 !in s.orders
  {
    ReserveSucceedsIffFeasible(s.stock, cart);
    ReserveKeepsStockNonNegative(s.stock, cart);
  }

  /** A cart naming a missing product, or asking for more than is left, is
      refused, with the error of the first line that breaks the reservation. */
  lemma CreateOrderReportsFirstBrokenLine(s: Shop, userId: UserId, cart: seq<Item>, i: nat)
    requires i < |cart|
    requires Feasible(s.stock, cart[..i])
    ensures cart[i].productId !in s.stock ==> CreateOrder(s, userId, cart) == Err(ResourceDoesNotExist)
    ensures cart[i].productId in s.stock && !Feasible(s.stock, cart[..i + 1]) ==>
              CreateOrder(s, userId, cart) == Err(InsufficientStock)
  {
    ReserveReportsFirstBrokenLine(s.stock, cart, i);
  }

  /** Cancelling an order right after creating it gives back the exact
      stock map the shop had before. */
  lemma CreateThenCancelRestoresStock(s: Shop, userId: UserId, cart: seq<Item>)
    requires Valid(s)
    requires CreateOrder(s, userId, cart).Ok?
    ensures var (s1, id) := CreateOrder(s, userId, cart).value;
            && CancelOrder(s1, id, userId).Ok?
            && CancelOrder(s1, id, userId).value.stock == s.stock
            && CancelOrder(s1, id, userId).value.orders[id].status == Cancelled
  {
    var (s1, id) := CreateOrder(s, userId, cart).value;
    ReserveThenRestock(s.stock, cart);
    assert s1.stock == Reserve(s.stock, cart).stock;
  }

  /** Withdrawing an order right after creating it gives back the shop's
      stock and order table exactly. */
  lemma CreateThenWithdrawRestoresShop(s: Shop, userId: UserId, cart: seq<Item>)
    requires Valid(s)
    requires CreateOrder(s, userId, cart).Ok?
    ensures var (s1, id) := CreateOrder(s, userId, cart).value;
            && WithdrawOrder(s1, id).Ok?
            && WithdrawOrder(s1, id).value.stock == s.stock
            && WithdrawOrder(s1, id).value.orders == s.orders
  {
    var (s1, id) := CreateOrder(s, userId, cart).value;
    ReserveThenRestock(s.stock, cart);
    assert s1.stock == Reserve(s.stock, cart).stock;
    assert id !in s.orders;
    assert s1.orders - {id} == s.orders;
  }

  /** A cancelled order cannot be cancelled a second time, so its stock is
      never credited twice by cancellation. */
  lemma CancelIsNotRepeatable(s: Shop, orderId: OrderId, userId: UserId)
    requires CancelOrder(s, orderId, userId).Ok?
    ensures CancelOrder(CancelOrder(s, orderId, userId).value, orderId, userId) == Err(InvalidOrderStatus)
  {
  }

  /** Withdrawal does not look at the status: withdrawing an order that was
      already cancelled credits its quantities to stock a second time. */
  lemma {:induction false} WithdrawAfterCancelCreditsTwice(s: Shop, orderId: OrderId, userId: UserId)
    requires CancelOrder(s, orderId, userId).Ok?
    ensures var s1 := CancelOrder(s, orderId, userId).value;
            && WithdrawOrder(s1, orderId).Ok?
            && forall p | p in s.stock ::
                 WithdrawOrder(s1, orderId).value.stock[p]
                   == s.stock[p] + 2 * Demand(s.orders[orderId].items, p)
  {
    var s1 := CancelOrder(s, orderId, userId).value;
    assert s1.orders[orderId].items == s.orders[orderId].items;
  }

  /** The reservation loop decrements stock before a later line fails, so the
      session holds a partly reserved stock when the exception escapes; only
      the missing commit keeps the shop's stock unchanged. */
  lemma FailedCreateDiscardsPartialReservation()
    ensures var stock := map[1 := 5, 2 := 0];
            var cart := [Item(1, 2), Item(2, 1)];
            && Reserve(stock, cart) == Rejected(InsufficientStock, map[1 := 3, 2 := 0])
            && CreateOrder(Shop(stock, map[], 0), 7, cart) == Err(InsufficientStock)
  {
    var stock := map[1 := 5, 2 := 0];
    var cart := [Item(1, 2), Item(2, 1)];
    assert cart[1..] == [Item(2, 1)];
    assert stock[1 := 3] == map[1 := 3, 2 := 0];
  }
}

=== FILE: product_images.dfy ===
/** The product image list: adding one image under the per-product limit,
    and replacing the list by a subset of itself, deleting the files that
    drop out. File storage is replaced by the paths the service would write
    or delete. */
module ProductImages {
  import opened Errors
  import opened Items

  /** `MAX_IMAGES_PER_PRODUCT` of the configured rules. */
  const MaxImagesPerProduct: nat := 10

  /** The image filenames of every product, in display order. */
  type Catalog = map<ProductId, seq<string>>

  function DigitChar(d: nat): (c: char)
    requires d < 10
    ensures '0' <= c <= '9'
  {
    "0123456789"[d]
  }

  function DigitValue(c: char): nat
  {
    if '0' <= c <= '9' then (c - '0') as nat else 0
  }

  /** The decimal digits of `n`, most significant first, as `str` writes them. */
  function Digits(n: nat): (s: string)
    ensures |s| > 0
    ensures forall i | 0 <= i < |s| :: '0' <= s[i] <= '9'
  {
    if n < 10 then [DigitChar(n)] else Digits(n / 10) + [DigitChar(n % 10)]
  }

  /** Read a digit string back as a number. */
  function ParseDigits(s: string): nat
  {
    if |s| == 0 then 0 else ParseDigits(s[..|s| - 1]) * 10 + DigitValue(s[|s| - 1])
  }

  lemma {:induction false} ParseDigitsOfDigits(n: nat)
    ensures ParseDigits(Digits(n)) == n
  {
    if n >= 10 {
      var s := Digits(n);
      assert s[..|s| - 1] == Digits(n / 10);
      ParseDigitsOfDigits(n / 10);
    } else {
      assert Digits(n)[..0] == [];
    }
  }

  /** `str` of an integer: a minus sign before the digits of a negative one. */
  function DecimalString(i: int): string
  {
    if i < 0 then "-" + Digits(-i) else Digits(i)
  }

  /** A decimal rendering never contains the path separator. */
  lemma DecimalHasNoSlash(i: int)
    ensures forall k | 0 <= k < |DecimalString(i)| :: DecimalString(i)[k] != '/'
  {
    var d := if i < 0 then Digits(-i) else Digits(i);
    if i < 0 {
      assert forall k | 1 <= k < |DecimalString(i)| :: DecimalString(i)[k] == d[k - 1];
    }
  }

  function ParseDecimal(s: string): int
  {
    if |s| > 0 && s[0] == '-' then -(ParseDigits(s[1..]) as int) else ParseDigits(s)
  }

  /** The decimal rendering reads back as the same integer. */
  lemma DecimalRoundTrip(i: int)
    ensures ParseDecimal(DecimalString(i)) == i
  {
    if i < 0 {
      var n: nat := -i;
      assert DecimalString(i) == "-" + Digits(n);
      NegativeRoundTrip(n);
    } else {
      UnsignedRoundTrip(i);
    }
  }

  lemma NegativeRoundTrip(n: nat)
    ensures ParseDecimal("-" + Digits(n)) == -(n as int)
  {
    var d := Digits(n);
    ParseNegative(d);
    ParseDigitsOfDigits(n);
  }

  lemma ParseNegative(d: string)
    ensures ParseDecimal("-" + d) == -(ParseDigits(d) as int)
  {
    var s := "-" + d;
    assert |s| > 0 && s[0] == '-' && s[1..] == d;
  }

  lemma UnsignedRoundTrip(n: nat)
    ensures ParseDecimal(DecimalString(n)) == n
  {
    var d := Digits(n);
    assert DecimalString(n) == d;
    assert d[0] != '-';
    ParseDigitsOfDigits(n);
  }

  /** Where an image file lives: `"{product_id}/{filename}"`. */
  function StoragePath(productId: ProductId, filename: string): (path: string)
    ensures |path| == |DecimalString(productId)| + 1 + |filename|
    ensures path[|DecimalString(productId)|] == '/'
    ensures path[..|DecimalString(productId)|] == DecimalString(productId)
    ensures path[|DecimalString(productId)| + 1..] == filename
  {
    DecimalString(productId) + "/" + filename
  }

  /** Index of the first '/' of a string, or its length. */
  function FirstSlash(s: string): (k: nat)
    ensures k <= |s|
    ensures forall j | 0 <= j < k :: s[j] != '/'
    ensures k < |s| ==> s[k] == '/'
  {
    if |s| == 0 || s[0] == '/' then 0 else 1 + FirstSlash(s[1..])
  }

  /** A storage path determines its product and filename, so the files of
      two different images never collide, even across products. */
  lemma StoragePathInjective(p1: ProductId, f1: string, p2: ProductId, f2: string)
    requires StoragePath(p1, f1) == StoragePath(p2, f2)
    ensures p1 == p2 && f1 == f2
  {
    var path := StoragePath(p1, f1);
    var d1, d2 := DecimalString(p1), DecimalString(p2);
    DecimalHasNoSlash(p1);
    DecimalHasNoSlash(p2);
    FirstSlashAt(path, |d1|);
    FirstSlashAt(path, |d2|);
    DecimalRoundTrip(p1);
    DecimalRoundTrip(p2);
  }

  lemma FirstSlashAt(s: string, k: nat)
    requires k < |s| && s[k] == '/'
    requires forall j | 0 <= j < k :: s[j] != '/'
    ensures FirstSlash(s) == k
  {
  }

  /** The outcome of a successful image operation: the new catalog and the
      storage paths written and deleted. */
  datatype Outcome = Outcome(catalog: Catalog, saved: set<string>, deleted: set<string>)

  /** `add_product_image`: an unknown product or a full image list is
      refused; otherwise the file is saved under the product's directory and
      its name appended to the list. */
  function AddProductImage(c: Catalog, productId: ProductId, filename: string): (r: Result<Outcome>)
    ensures productId !in c ==> r == Err(ResourceDoesNotExist)
    ensures productId in c && |c[productId]| >= MaxImagesPerProduct ==> r == Err(LimitExceeded)
    ensures r.Ok? <==> productId in c && |c[productId]| < MaxImagesPerProduct
    ensures r.Ok? ==>
              && r.value.catalog.Keys == c.Keys
              && r.value.catalog[productId] == c[productId] + [filename]
              && |r.value.catalog[productId]| == |c[productId]| + 1
              && (forall p | p in c && p != productId :: r.value.catalog[p] == c[p])
              && r.value.saved == {StoragePath(productId, filename)}
              && r.value.deleted == {}
  {
    if productId !in c then Err(ResourceDoesNotExist)
    else if |c[productId]| >= MaxImagesPerProduct then Err(LimitExceeded)
    else
      Ok(Outcome(c[productId := c[productId] + [filename]], {StoragePath(productId, filename)}, {}))
  }

  /** The set of distinct names in a list, as `set(...)` builds it. */
  function Names(images: seq<string>): set<string>
  {
    set f | f in images
  }

  /** `change_product_images`: every requested name must already be an image
      of the product; the files of the names not requested are deleted and the
      list becomes exactly the requested one. */
  function ChangeProductImages(c: Catalog, productId: ProductId, images: seq<string>): (r: Result<Outcome>)
    ensures productId !in c ==> r == Err(ResourceDoesNotExist)
    ensures productId in c && !(Names(images) <= Names(c[productId])) ==> r == Err(ResourceDoesNotExist)
    ensures r.Ok? <==> productId in c && Names(images) <= Names(c[productId])
    ensures r.Ok? ==>
              && r.value.catalog == c[productId := images]
              && r.value.saved == {}
              && (forall path :: path in r.value.deleted <==>
                    exists f | f in c[productId] && f !in images :: path == StoragePath(productId, f))
  {
    if productId !in c then Err(ResourceDoesNotExist)
    else if !(Names(images) <= Names(c[productId])) then Err(ResourceDoesNotExist)
    else
      var dropped := Names(c[productId]) - Names(images);
      Ok(Outcome(c[productId := images], {}, set f | f in dropped :: StoragePath(productId, f)))
  }

  /** A file of the product is deleted exactly when its name was an image and
      is not requested, and no requested image loses its file. */
  lemma ChangeDeletesExactlyDropped(c: Catalog, productId: ProductId, images: seq<string>, f: string)
    requires ChangeProductImages(c, productId, images).Ok?
    ensures (StoragePath(productId, f) in ChangeProductImages(c, productId, images).value.deleted)
              <==> f in c[productId] && f !in images
  {
    var path := StoragePath(productId, f);
    if path in ChangeProductImages(c, productId, images).value.deleted {
      var g :| g in c[productId] && g !in images && path == StoragePath(productId, g);
      StoragePathInjective(productId, f, productId, g);
    }
  }

  /** The names kept and the names deleted together are the old names. */
  lemma ChangeSplitsNames(c: Catalog, productId: ProductId, images: seq<string>)
    requires ChangeProductImages(c, productId, images).Ok?
    ensures Names(c[productId]) ==
              Names(ChangeProductImages(c, productId, images).value.catalog[productId])
              + (set f | f in c[productId] && StoragePath(productId, f) in
                   ChangeProductImages(c, productId, images).value.deleted)
  {
    forall f | f in c[productId]
      ensures f in images || StoragePath(productId, f) in ChangeProductImages(c, productId, images).value.deleted
    {
      ChangeDeletesExactlyDropped(c, productId, images, f);
    }
  }

  /** Passing the current list back deletes nothing and changes nothing. */
  lemma ChangeToCurrentIsNoOp(c: Catalog, productId: ProductId)
    requires productId in c
    ensures ChangeProductImages(c, productId, c[productId]) == Ok(Outcome(c, {}, {}))
  {
    var r := ChangeProductImages(c, productId, c[productId]);
    assert r.value.catalog == c;
    var dropped := Names(c[productId]) - Names(c[productId]);
    assert dropped == {};
    assert r.value.deleted == set f | f in dropped :: StoragePath(productId, f);
    assert r.value.deleted == {};
    assert r.value.saved == {};
    assert r.Ok?;
  }

  /** The list may only shrink in distinct names, but the count check in
      `change_product_images` is absent: repeating a name takes a full list
      past the limit. */
  lemma ChangeCanExceedLimit()
    ensures var c: Catalog := map[1 := seq(MaxImagesPerProduct, i => "a.png")];
            var r := ChangeProductImages(c, 1, seq(MaxImagesPerProduct + 1, i => "a.png"));
            r.Ok? && |r.value.catalog[1]| > MaxImagesPerProduct
  {
    var c: Catalog := map[1 := seq(MaxImagesPerProduct, i => "a.png")];
    var images := seq(MaxImagesPerProduct + 1, i => "a.png");
    assert c[1][0] == "a.png";
    assert forall f | f in images :: f == "a.png";
  }

  /** Adding keeps every list within the limit when it was within it. */
  lemma AddKeepsLimit(c: Catalog, productId: ProductId, filename: string)
    requires forall p | p in c :: |c[p]| <= MaxImagesPerProduct
    requires AddProductImage(c, productId, filename).Ok?
    ensures forall p | p in AddProductImage(c, productId, filename).value.catalog ::
              |AddProductImage(c, productId, filename).value.catalog[p]| <= MaxImagesPerProduct
  {
  }
}

=== FILE: reviews.dfy ===
/** The review rules: creating, deleting and updating product reviews, with
    the permission checks and the points where a product's average rating
    must be recomputed. The average itself is floating-point arithmetic and
    is left out; what is modelled is which product's ratings changed and
    whether the service asks for the recomputation. */
module ReviewService {
  import opened Errors
  import opened Items

  type ReviewId = int

  /** `MAX_REVIEW_CONTENT_LENGTH` of the configured rules. */
  const MaxReviewContentLength: nat := 1000

  datatype Review = Review(userId: UserId, productId: ProductId, rating: int, content: string)

  /** The data the review service reads and writes: the existing products,
      the review table by id, and the id the next review receives. */
  datatype Board = Board(products: set<ProductId>, reviews: map<ReviewId, Review>, nextReviewId: ReviewId)

  /** `ReviewIn`: a rating from 0 to 5 and bounded content. */
  datatype ReviewIn = ReviewIn(rating: int, content: string)

  /** `ReviewUpdate`: each field optional; an absent field is not changed. */
  datatype ReviewUpdate = ReviewUpdate(rating: Option<int>, content: Option<string>)

  predicate ValidRating(rating: int)
  {
    0 <= rating <= 5
  }

  /** The schema's field constraints on a new review. */
  predicate ValidReviewIn(data: ReviewIn)
  {
    ValidRating(data.rating) && |data.content| <= MaxReviewContentLength
  }

  /** The schema's field constraints on an update: present fields obey the
      same bounds as on creation. */
  predicate ValidReviewUpdate(data: ReviewUpdate)
  {
    && (data.rating.Some? ==> ValidRating(data.rating.value))
    && (data.content.Some? ==> |data.content.value| <= MaxReviewContentLength)
  }

  /** Every stored review obeys the schema bounds, every id is below the next
      one, and no user has two reviews of the same product. */
  predicate Valid(b: Board)
  {
    && (forall id | id in b.reviews ::
          && id < b.nextReviewId
          && ValidRating(b.reviews[id].rating)
          && |b.reviews[id].content| <= MaxReviewContentLength)
    && (forall i, j | i in b.reviews && j in b.reviews && i != j ::
          b.reviews[i].userId != b.reviews[j].userId || b.reviews[i].productId != b.reviews[j].productId)
  }

  /** The user has already reviewed the product. */
  predicate HasReviewed(b: Board, u: UserId, p: ProductId)
  {
    exists id | id in b.reviews :: b.reviews[id].userId == u && b.reviews[id].productId == p
  }

  /** The ratings the average of product `p` is computed from, by review id. */
  function RatingsOf(b: Board, p: ProductId): map<ReviewId, int>
  {
    map id | id in b.reviews && b.reviews[id].productId == p :: b.reviews[id].rating
  }

  /** A successful review operation: the new board, and the product whose
      average rating the service recomputes, if any. */
  datatype Outcome = Outcome(board: Board, recompute: Option<ProductId>)

  /** `create_review`: an unknown product, or a second review by the same
      user of the same product, is refused; otherwise the review is stored
      under the next id and the product's rating recomputed. */
  function CreateReview(b: Board, data: ReviewIn, u: UserId, p: ProductId): (r: Result<Outcome>)
    requires ValidReviewIn(data)
    ensures p !in b.products ==> r == Err(ResourceDoesNotExist)
    ensures p in b.products && HasReviewed(b, u, p) ==> r == Err(ResourceAlreadyExists)
    ensures r.Ok? <==> p in b.products && !HasReviewed(b, u, p)
    ensures r.Ok? ==>
              && r.value.board.products == b.products
              && r.value.board.reviews == b.reviews[b.nextReviewId := Review(u, p, data.rating, data.content)]
              && r.value.board.nextReviewId > b.nextReviewId
              && r.value.recompute == Some(p)
  {
    if p !in b.products then Err(ResourceDoesNotExist)
    else if HasReviewed(b, u, p) then Err(ResourceAlreadyExists)
    else
      var review := Review(u, p, data.rating, data.content);
      Ok(Outcome(b.(reviews := b.reviews[b.nextReviewId := review], nextReviewId := b.nextReviewId + 1), Some(p)))
  }

  /** `delete_review`: a missing review is reported; only an admin or the
      review's author may delete it; the product's rating is recomputed. */
  function DeleteReview(b: Board, id: ReviewId, u: UserId, isAdmin: bool): (r: Result<Outcome>)
    ensures id !in b.reviews ==> r == Err(ResourceDoesNotExist)
    ensures id in b.reviews && !isAdmin && b.reviews[id].userId != u ==> r == Err(NotEnoughRights)
    ensures r.Ok? <==> id in b.reviews && (isAdmin || b.reviews[id].userId == u)
    ensures r.Ok? ==>
              && r.value.board == b.(reviews := b.reviews - {id})
              && r.value.recompute == Some(b.reviews[id].productId)
  {
    if id !in b.reviews then Err(ResourceDoesNotExist)
    else if !isAdmin && b.reviews[id].userId != u then Err(NotEnoughRights)
    else Ok(Outcome(b.(reviews := b.reviews - {id}), Some(b.reviews[id].productId)))
  }

  /** The review with the present fields of an update written over it. */
  function ApplyUpdate(prior: Review, data: ReviewUpdate): (r: Review)
    ensures r.userId == prior.userId && r.productId == prior.productId
    ensures r.rating == (if data.rating.Some? then data.rating.value else prior.rating)
    ensures r.content == (if data.content.Some? then data.content.value else prior.content)
  {
    var withRating := if data.rating.Some? then prior.(rating := data.rating.value) else prior;
    if data.content.Some? then withRating.(content := data.content.value) else withRating
  }

  /** `update_my_review`: a missing review is reported; only the author may
      update it, whatever their role; the present fields are written, and
      the rating is recomputed only when a new rating differs from the one
      stored before the update. This is the comparison the service evidently
      intends; `UpdateMyReviewAsWritten` is the comparison it makes. */
  function UpdateMyReview(b: Board, id: ReviewId, data: ReviewUpdate, u: UserId): (r: Result<Outcome>)
    requires ValidReviewUpdate(data)
    ensures id !in b.reviews ==> r == Err(ResourceDoesNotExist)
    ensures id in b.reviews && b.reviews[id].userId != u ==> r == Err(NotEnoughRights)
    ensures r.Ok? <==> id in b.reviews && b.reviews[id].userId == u
    ensures r.Ok? ==>
              && r.value.board.products == b.products
              && r.value.board.nextReviewId == b.nextReviewId
              && r.value.board.reviews.Keys == b.reviews.Keys
              && (forall j | j in b.reviews && j != id :: r.value.board.reviews[j] == b.reviews[j])
              && r.value.board.reviews[id] == ApplyUpdate(b.reviews[id], data)
    ensures r.Ok? ==>
              (r.value.recompute.Some? <==> data.rating.Some? && data.rating.value != b.reviews[id].rating)
    ensures r.Ok? && r.value.recompute.Some? ==> r.value.recompute.value == b.reviews[id].productId
  {
    if id !in b.reviews then Err(ResourceDoesNotExist)
    else if b.reviews[id].userId != u then Err(NotEnoughRights)
    else
      var before := b.reviews[id];
      var after := ApplyUpdate(before, data);
      var changed := data.rating.Some? && data.rating.value != before.rating;
      Ok(Outcome(b.(reviews := b.reviews[id := after]), if changed then Some(before.productId) else None))
  }

  /** `update_my_review` as written: the comparison deciding the
      recomputation reads the rating of the review object fetched before the
      update, but does so after `update_review_by_id` has run. The session
      holds one object per primary key, so that object already carries the
      new rating whenever the update wrote one. Everything else is as in
      `UpdateMyReview`. */
  function UpdateMyReviewAsWritten(b: Board, id: ReviewId, data: ReviewUpdate, u: UserId): (r: Result<Outcome>)
    requires ValidReviewUpdate(data)
    ensures r.Ok? <==> UpdateMyReview(b, id, data, u).Ok?
    ensures r.Err? ==> r == UpdateMyReview(b, id, data, u)
    ensures r.Ok? ==> r.value.board == UpdateMyReview(b, id, data, u).value.board
    ensures r.Ok? ==> r.value.recompute.None?
  {
    if id !in b.reviews then Err(ResourceDoesNotExist)
    else if b.reviews[id].userId != u then Err(NotEnoughRights)
    else
      var after := ApplyUpdate(b.reviews[id], data);
      var changed := data.rating.Some? && data.rating.value != after.rating;
      Ok(Outcome(b.(reviews := b.reviews[id := after]), if changed then Some(after.productId) else None))
  }

  /** The as-written comparison misses a real rating change: the author moves
      a rating from 3 to 5, the product's ratings change, and no
      recomputation is asked for. */
  lemma AsWrittenMissesRatingChange()
    ensures var b := Board({1}, map[0 := Review(7, 1, 3, "")], 1);
            var data := ReviewUpdate(Some(5), None);
            && UpdateMyReviewAsWritten(b, 0, data, 7).Ok?
            && RatingsOf(UpdateMyReviewAsWritten(b, 0, data, 7).value.board, 1) != RatingsOf(b, 1)
            && UpdateMyReviewAsWritten(b, 0, data, 7).value.recompute == None
  {
    var b := Board({1}, map[0 := Review(7, 1, 3, "")], 1);
    var data := ReviewUpdate(Some(5), None);
    var b' := UpdateMyReviewAsWritten(b, 0, data, 7).value.board;
    assert RatingsOf(b', 1)[0] == 5 && RatingsOf(b, 1)[0] == 3;
  }

  /** Creating keeps every stored review within the bounds and keeps one
      review per user and product. */
  lemma CreatePreservesValid(b: Board, data: ReviewIn, u: UserId, p: ProductId)
    requires Valid(b) && ValidReviewIn(data)
    requires CreateReview(b, data, u, p).Ok?
    ensures Valid(CreateReview(b, data, u, p).value.board)
  {
  }

  lemma DeletePreservesValid(b: Board, id: ReviewId, u: UserId, isAdmin: bool)
    requires Valid(b)
    requires DeleteReview(b, id, u, isAdmin).Ok?
    ensures Valid(DeleteReview(b, id, u, isAdmin).value.board)
  {
  }

  lemma UpdatePreservesValid(b: Board, id: ReviewId, data: ReviewUpdate, u: UserId)
    requires Valid(b) && ValidReviewUpdate(data)
    requires UpdateMyReview(b, id, data, u).Ok?
    ensures Valid(UpdateMyReview(b, id, data, u).value.board)
  {
  }

  /** After a create, the product's ratings gain exactly the new rating and
      no other product's ratings change; the service recomputes exactly the
      product whose ratings changed. */
  lemma CreateRecomputesExactlyChanged(b: Board, data: ReviewIn, u: UserId, p: ProductId, q: ProductId)
    requires Valid(b) && ValidReviewIn(data)
    requires CreateReview(b, data, u, p).Ok?
    ensures RatingsOf(CreateReview(b, data, u, p).value.board, p) == RatingsOf(b, p)[b.nextReviewId := data.rating]
    ensures (CreateReview(b, data, u, p).value.recompute == Some(q))
              <==> RatingsOf(CreateReview(b, data, u, p).value.board, q) != RatingsOf(b, q)
  {
    var b' := CreateReview(b, data, u, p).value.board;
    assert b.nextReviewId !in b.reviews;
    assert b.nextReviewId in RatingsOf(b', p) && b.nextReviewId !in RatingsOf(b, p);
    if q != p {
      assert RatingsOf(b', q) == RatingsOf(b, q);
    }
  }

  /** After a delete, the deleted review's product loses that rating, no
      other product's ratings change, and the service recomputes exactly the
      product whose ratings changed. */
  lemma DeleteRecomputesExactlyChanged(b: Board, id: ReviewId, u: UserId, isAdmin: bool, q: ProductId)
    requires DeleteReview(b, id, u, isAdmin).Ok?
    ensures (DeleteReview(b, id, u, isAdmin).value.recompute == Some(q))
              <==> RatingsOf(DeleteReview(b, id, u, isAdmin).value.board, q) != RatingsOf(b, q)
  {
    var b' := DeleteReview(b, id, u, isAdmin).value.board;
    if q == b.reviews[id].productId {
      assert id in RatingsOf(b, q) && id !in RatingsOf(b', q);
    } else {
      assert RatingsOf(b', q) == RatingsOf(b, q);
    }
  }

  /** An update recomputes exactly the product whose ratings it changed: a
      content-only update, or one repeating the old rating, recomputes
      nothing. */
  lemma UpdateRecomputesExactlyChanged(b: Board, id: ReviewId, data: ReviewUpdate, u: UserId, q: ProductId)
    requires ValidReviewUpdate(data)
    requires UpdateMyReview(b, id, data, u).Ok?
    ensures (UpdateMyReview(b, id, data, u).value.recompute == Some(q))
              <==> RatingsOf(UpdateMyReview(b, id, data, u).value.board, q) != RatingsOf(b, q)
  {
    var b' := UpdateMyReview(b, id, data, u).value.board;
    var p := b.reviews[id].productId;
    if q == p && data.rating.Some? && data.rating.value != b.reviews[id].rating {
      assert RatingsOf(b', q)[id] != RatingsOf(b, q)[id];
    } else {
      assert RatingsOf(b', q) == RatingsOf(b, q);
    }
  }

  /** No operation ever gives a user a second review of one product: a
      create for a pair already reviewed is refused. */
  lemma CreateTwiceRefused(b: Board, d1: ReviewIn, d2: ReviewIn, u: UserId, p: ProductId)
    requires ValidReviewIn(d1) && ValidReviewIn(d2)
    requires CreateReview(b, d1, u, p).Ok?
    ensures CreateReview(CreateReview(b, d1, u, p).value.board, d2, u, p) == Err(ResourceAlreadyExists)
  {
    var b' := CreateReview(b, d1, u, p).value.board;
    assert b'.reviews[b.nextReviewId].userId == u;
  }
}

=== FILE: stock.dfy ===
/** Inventory reservation and restocking: the loops of the order service that
    read product quantities (under row locks) and adjust them line by line. */
module Stock {
  import opened Errors
  import opened Items

  /** Available quantity per existing product. */
  type StockMap = map<ProductId, int>

  /** No product has a negative available quantity. */
  predicate NonNegative(stock: StockMap)
  {
    forall p | p in stock :: stock[p] >= 0
  }

  /** Every line names an existing product and, for every product, the lines
      together ask for no more than is available. */
  predicate Feasible(stock: StockMap, items: seq<Item>)
  {
    && (forall i | 0 <= i < |items| :: items[i].productId in stock)
    && (forall p | p in stock && Demand(items, p) > 0 :: Demand(items, p) <= stock[p])
  }

  /** Outcome of the reservation loop. On rejection, `working` is the stock
      as the loop had already decremented it when the exception was raised;
      the uncommitted session discards it. */
  datatype Reservation =
    | Reserved(stock: StockMap)
    | Rejected(error: Error, working: StockMap)

  /** The loop of `create_order`: for each line in order, a missing product
      raises ResourceDoesNotExist, a quantity above the remaining stock raises
      InsufficientStock, and otherwise the stock is decremented at once, so a
      later line for the same product is checked against the decremented value. */
  function Reserve(stock: StockMap, items: seq<Item>): (r: Reservation)
    ensures r.Rejected? ==> r.error == ResourceDoesNotExist || r.error == InsufficientStock
    ensures r.Reserved? ==> r.stock.Keys == stock.Keys
    ensures r.Reserved? ==> forall p | p in stock :: r.stock[p] == stock[p] - Demand(items, p)
    ensures r.Reserved? ==> forall p | p in stock :: r.stock[p] >= 0 || r.stock[p] == stock[p]
  {
    if |items| == 0 then Reserved(stock)
    else
      var it := items[0];
      if it.productId !in stock then Rejected(ResourceDoesNotExist, stock)
      else if stock[it.productId] < it.quantity then Rejected(InsufficientStock, stock)
      else Reserve(stock[it.productId := stock[it.productId] - it.quantity], items[1..])
  }

  /** The loop of `cancel_order` and `withdraw_order`: every line's quantity
      is added back; a product that no longer exists makes the dictionary
      lookup raise. */
  function Restock(stock: StockMap, items: seq<Item>): (r: Result<StockMap>)
    ensures r.Ok? <==> forall i | 0 <= i < |items| :: items[i].productId in stock
    ensures r.Err? ==> r.error == MissingKey
    ensures r.Ok? ==> r.value.Keys == stock.Keys
    ensures r.Ok? ==> forall p | p in stock :: r.value[p] == stock[p] + Demand(items, p)
  {
    if |items| == 0 then Ok(stock)
    else
      var it := items[0];
      if it.productId !in stock then Err(MissingKey)
      else
        var r := Restock(stock[it.productId := stock[it.productId] + it.quantity], items[1..]);
        assert forall i | 1 <= i < |items| :: items[i] == items[1..][i - 1];
        r
  }

  /** Feasibility unfolds one line at a time: the first line must fit, and the
      rest must fit the stock that line leaves. */
  lemma FeasibleStep(stock: StockMap, items: seq<Item>)
    requires |items| > 0
    ensures Feasible(stock, items) <==>
              && items[0].productId in stock
              && items[0].quantity <= stock[items[0].productId]
              && Feasible(stock[items[0].productId := stock[items[0].productId] - items[0].quantity],
                          items[1..])
  {
    var x := items[0];
    var rest := items[1..];
    assert forall i | 1 <= i < |items| :: items[i] == rest[i - 1];
    assert forall p :: Demand(items, p) == (if x.productId == p then x.quantity else 0) + Demand(rest, p);
    if x.productId in stock {
      var s' := stock[x.productId := stock[x.productId] - x.quantity];
      if Feasible(stock, items) {
        forall p | p in s' && Demand(rest, p) > 0
          ensures Demand(rest, p) <= s'[p]
        {
          assert Demand(items, p) <= stock[p];
        }
      }
      if x.quantity <= stock[x.productId] && Feasible(s', rest) {
        forall p | p in stock && Demand(items, p) > 0
          ensures Demand(items, p) <= stock[p]
        {
          if Demand(rest, p) > 0 { assert Demand(rest, p) <= s'[p]; }
        }
      }
    }
  }

  /** The reservation succeeds exactly when the cart is feasible. */
  lemma {:induction false} ReserveSucceedsIffFeasible(stock: StockMap, items: seq<Item>)
    ensures Reserve(stock, items).Reserved? <==> Feasible(stock, items)
    decreases |items|
  {
    if |items| > 0 {
      FeasibleStep(stock, items);
      var x := items[0];
      if x.productId in stock && x.quantity <= stock[x.productId] {
        ReserveSucceedsIffFeasible(stock[x.productId := stock[x.productId] - x.quantity], items[1..]);
      }
    }
  }

  /** The error reported is the one of the first line that makes the cart
      infeasible: a missing product gives ResourceDoesNotExist, an existing one
      whose cumulative demand exceeds its stock gives InsufficientStock. */
  lemma {:induction false} ReserveReportsFirstBrokenLine(stock: StockMap, items: seq<Item>, i: nat)
    requires i < |items|
    requires Feasible(stock, items[..i])
    ensures items[i].productId !in stock ==>
              Reserve(stock, items).Rejected? && Reserve(stock, items).error == ResourceDoesNotExist
    ensures items[i].productId in stock && !Feasible(stock, items[..i + 1]) ==>
              Reserve(stock, items).Rejected? && Reserve(stock, items).error == InsufficientStock
    decreases i
  {
    if i == 0 {
      ReportsBrokenHead(stock, items);
    } else {
      var x := items[0];
      var rest := items[1..];
      SliceStep(stock, items, i);
      var s' := stock[x.productId := stock[x.productId] - x.quantity];
      assert Reserve(stock, items) == Reserve(s', rest);
      assert rest[i - 1] == items[i];
      ReserveReportsFirstBrokenLine(s', rest, i - 1);
    }
  }

  /** The first line alone: a missing product or a quantity above the stock
      is reported at once. */
  lemma ReportsBrokenHead(stock: StockMap, items: seq<Item>)
    requires |items| > 0
    ensures items[0].productId !in stock ==>
              Reserve(stock, items).Rejected? && Reserve(stock, items).error == ResourceDoesNotExist
    ensures items[0].productId in stock && !Feasible(stock, items[..1]) ==>
              Reserve(stock, items).Rejected? && Reserve(stock, items).error == InsufficientStock
  {
    if items[0].productId in stock && !Feasible(stock, items[..1]) {
      FeasibleStep(stock, items[..1]);
      assert items[..1][1..] == [];
    }
  }

  /** A feasible prefix of length `i` passes its first line, and what is
      left of it, and of the prefix one longer, is a prefix of the rest
      checked against the stock the first line leaves. */
  lemma SliceStep(stock: StockMap, items: seq<Item>, i: nat)
    requires 0 < i < |items|
    requires Feasible(stock, items[..i])
    ensures items[0].productId in stock && items[0].quantity <= stock[items[0].productId]
    ensures Feasible(stock[items[0].productId := stock[items[0].productId] - items[0].quantity], items[1..][..i - 1])
    ensures Feasible(stock, items[..i + 1]) <==>
              Feasible(stock[items[0].productId := stock[items[0].productId] - items[0].quantity], items[1..][..i])
  {
    var a := items[..i];
    var b := items[..i + 1];
    assert a[0] == items[0] && a[1..] == items[1..][..i - 1];
    assert b[0] == items[0] && b[1..] == items[1..][..i];
    FeasibleStep(stock, a);
    FeasibleStep(stock, b);
  }

  /** A reservation that succeeds never drives a product below zero, and
      leaves every product no line names untouched. */
  lemma ReserveKeepsStockNonNegative(stock: StockMap, items: seq<Item>)
    requires NonNegative(stock)
    requires Reserve(stock, items).Reserved?
    ensures NonNegative(Reserve(stock, items).stock)
    ensures forall p | p in stock && (forall i | 0 <= i < |items| :: items[i].productId != p) ::
              Reserve(stock, items).stock[p] == stock[p]
  {
    ReserveSucceedsIffFeasible(stock, items);
    forall p | p in stock && (forall i | 0 <= i < |items| :: items[i].productId != p)
      ensures Reserve(stock, items).stock[p] == stock[p]
    {
      DemandZero(items, p);
    }
  }

  /** Restocking what a successful reservation took gives back the original
      stock map exactly. */
  lemma ReserveThenRestock(stock: StockMap, items: seq<Item>)
    requires Reserve(stock, items).Reserved?
    ensures Restock(Reserve(stock, items).stock, items) == Ok(stock)
  {
    ReserveSucceedsIffFeasible(stock, items);
    var s1 := Reserve(stock, items).stock;
    var s2 := Restock(s1, items).value;
    assert s2.Keys == stock.Keys;
    assert forall p | p in stock :: s2[p] == stock[p];
    assert s2 == stock;
  }
}

=== FILE: token_service.dfy ===
/** The token service: issuing, revoking and checking refresh and recovery
    tokens. A token is valid when it equals the one stored for the user. */
module TokenService {
  import opened Errors
  import opened Items
  import CrudBase
  import opened TokenStore

  /** `is_*_token_valid`: a row is stored for the user and its token equals
      the one presented. */
  function IsValid(ts: Tokens, kind: TokenKind, u: UserId, token: string): (b: bool)
    ensures b ==> TokenRow(u, token) in Table(ts, kind)
    ensures AllValid(ts) && TokenRow(u, token) in Table(ts, kind) ==> b
  {
    var b := match Get(Table(ts, kind), u)
      case Some(row) => row.token == token
      case None => false;
    // The lemma call adds no computation: it only supplies the proof of the
    // ensures that hold when the tables are valid, the one case it covers.
    if AllValid(ts) then (CrudBase.GetUnique(Table(ts, kind), Key, TokenRow(u, token)); b) else b
  }

  function UpsertRefreshToken(ts: Tokens, u: UserId, token: string): (r: Tokens)
    ensures AllValid(ts) ==> AllValid(r)
    ensures Table(r, Confirmation) == ts.confirmation && Table(r, Recovery) == ts.recovery
    ensures AllValid(ts) ==> IsValid(r, Refresh, u, token)
  {
    UpsertKind(ts, Refresh, TokenRow(u, token))
  }

  function UpsertRecoveryToken(ts: Tokens, u: UserId, token: string): (r: Tokens)
    ensures AllValid(ts) ==> AllValid(r)
    ensures Table(r, Confirmation) == ts.confirmation && Table(r, Refresh) == ts.refresh
    ensures AllValid(ts) ==> IsValid(r, Recovery, u, token)
  {
    UpsertKind(ts, Recovery, TokenRow(u, token))
  }

  function RevokeRefreshToken(ts: Tokens, u: UserId): (r: Tokens)
    ensures AllValid(ts) ==> AllValid(r)
    ensures Table(r, Confirmation) == ts.confirmation && Table(r, Recovery) == ts.recovery
    ensures AllValid(ts) ==> forall t :: !IsValid(r, Refresh, u, t)
  {
    var r := DeleteKind(ts, Refresh, u);
    // The lemma call adds no computation: it only supplies the proof of the
    // ensures that hold when the tables are valid, the one case it covers.
    if AllValid(ts) then (CrudBase.DeleteRow(ts.refresh, Key, u); r) else r
  }

  function RevokeRecoveryToken(ts: Tokens, u: UserId): (r: Tokens)
    ensures AllValid(ts) ==> AllValid(r)
    ensures Table(r, Confirmation) == ts.confirmation && Table(r, Refresh) == ts.refresh
    ensures AllValid(ts) ==> forall t :: !IsValid(r, Recovery, u, t)
  {
    var r := DeleteKind(ts, Recovery, u);
    // As in `RevokeRefreshToken`, the call only proves the valid-table ensures.
    if AllValid(ts) then (CrudBase.DeleteRow(ts.recovery, Key, u); r) else r
  }

  /** After issuing a token, it is the only valid token of that kind for the
      user, and every other user's validity is unchanged. */
  lemma UpsertReplacesEarlierToken(ts: Tokens, kind: TokenKind, u: UserId, token: string)
    requires AllValid(ts)
    ensures IsValid(UpsertKind(ts, kind, TokenRow(u, token)), kind, u, token)
    ensures forall t | t != token :: !IsValid(UpsertKind(ts, kind, TokenRow(u, token)), kind, u, t)
    ensures forall u', t | u' != u ::
              IsValid(UpsertKind(ts, kind, TokenRow(u, token)), kind, u', t) == IsValid(ts, kind, u', t)
  {
  }

  /** Revoking removes every token of that kind for the user, and only for
      that user. */
  lemma RevokeInvalidates(ts: Tokens, kind: TokenKind, u: UserId)
    requires AllValid(ts)
    ensures forall t :: !IsValid(DeleteKind(ts, kind, u), kind, u, t)
    ensures forall u', t | u' != u :: IsValid(DeleteKind(ts, kind, u), kind, u', t) == IsValid(ts, kind, u', t)
  {
    CrudBase.DeleteRow(Table(ts, kind), Key, u);
  }
}

=== FILE: tokens.dfy ===
/** The token tables: one table per token kind, each keyed by the user id,
    so a user holds at most one live token of each kind. */
module TokenStore {
  import opened Errors
  import opened Items
  import CrudBase

  datatype TokenRow = TokenRow(userId: UserId, token: string)

  /** The primary key of a token row. */
  function Key(r: TokenRow): UserId
  {
    r.userId
  }

  /** A token table keeps at most one row per user. */
  predicate Valid(rows: seq<TokenRow>)
  {
    CrudBase.UniqueKeys(rows, Key)
  }

  /** The stored token row of user `u`, if any. */
  function Get(rows: seq<TokenRow>, u: UserId): Option<TokenRow>
  {
    CrudBase.Get(rows, Key, u)
  }

  /** `upsert`: overwrite the token string of the user's existing row, or
      create the row. */
  function Upsert(rows: seq<TokenRow>, row: TokenRow): (r: seq<TokenRow>)
    ensures Get(rows, row.userId).Some? ==> |r| == |rows|
    ensures Get(rows, row.userId).None? ==> r == rows + [row]
    ensures Valid(rows) ==> Valid(r)
    ensures Valid(rows) ==> Get(r, row.userId) == Some(row)
    ensures Valid(rows) ==> forall u | u != row.userId :: Get(r, u) == Get(rows, u)
  {
    match CrudBase.FindKey(rows, Key, row.userId)
    case Some(i) =>
      var y := rows[i].(token := row.token);
      assert y == row;
      var r := rows[i := y];
      // The lemma call adds no computation: it only supplies the proof of the
      // ensures that hold when the table is valid, the one case it covers.
      if Valid(rows) then (CrudBase.ReplaceRow(rows, Key, i, y); r) else r
    case None =>
      var r := CrudBase.Create(rows, Key, row).0;
      // As above, the call only proves the valid-table ensures.
      if Valid(rows) then (CrudBase.AppendRow(rows, Key, row); r) else r
  }

  /** Upserting the same token twice leaves the table as upserting it once. */
  lemma UpsertIdempotent(rows: seq<TokenRow>, row: TokenRow)
    ensures Upsert(Upsert(rows, row), row) == Upsert(rows, row)
  {
    var r1 := Upsert(rows, row);
    match CrudBase.FindKey(rows, Key, row.userId)
    case Some(i) =>
      assert r1 == rows[i := row];
      assert Key(r1[i]) == row.userId;
      var j := CrudBase.FindKey(r1, Key, row.userId).value;
      assert forall k | 0 <= k < i :: r1[k] == rows[k];
      assert j == i;
    case None =>
      assert r1 == rows + [row];
      assert Key(r1[|rows|]) == row.userId;
      var j := CrudBase.FindKey(r1, Key, row.userId).value;
      assert forall k | 0 <= k < |rows| :: r1[k] == rows[k];
      assert j == |rows|;
      assert r1[j := row] == r1;
  }

  /** The three token kinds. */
  datatype TokenKind = Confirmation | Recovery | Refresh

  /** The three separate token tables. */
  datatype Tokens = Tokens(confirmation: seq<TokenRow>, recovery: seq<TokenRow>, refresh: seq<TokenRow>)

  function Table(ts: Tokens, kind: TokenKind): seq<TokenRow>
  {
    match kind
    case Confirmation => ts.confirmation
    case Recovery => ts.recovery
    case Refresh => ts.refresh
  }

  /** Replace one kind's table, keeping the other two. */
  function WithTable(ts: Tokens, kind: TokenKind, rows: seq<TokenRow>): (r: Tokens)
    ensures Table(r, kind) == rows
    ensures forall k | k != kind :: Table(r, k) == Table(ts, k)
  {
    match kind
    case Confirmation => ts.(confirmation := rows)
    case Recovery => ts.(recovery := rows)
    case Refresh => ts.(refresh := rows)
  }

  /** Every table keeps at most one row per user. */
  predicate AllValid(ts: Tokens)
  {
    forall k: TokenKind :: Valid(Table(ts, k))
  }

  /** Upsert into the table of one kind; the other kinds are separate
      tables and stay as they were. */
  function UpsertKind(ts: Tokens, kind: TokenKind, row: TokenRow): (r: Tokens)
    ensures Table(r, kind) == Upsert(Table(ts, kind), row)
    ensures forall k | k != kind :: Table(r, k) == Table(ts, k)
    ensures AllValid(ts) ==> AllValid(r)
  {
    WithTable(ts, kind, Upsert(Table(ts, kind), row))
  }

  /** `delete` on one kind's table: the user's row goes, the other kinds
      stay as they were. */
  function DeleteKind(ts: Tokens, kind: TokenKind, u: UserId): (r: Tokens)
    ensures Table(r, kind) == CrudBase.Delete(Table(ts, kind), Key, u)
    ensures forall k | k != kind :: Table(r, k) == Table(ts, k)
    ensures AllValid(ts) ==> AllValid(r)
  {
    WithTable(ts, kind, CrudBase.Delete(Table(ts, kind), Key, u))
  }
}

=== FILE: users.dfy ===
/** Registration: by e-mail with a one-shot confirmation code held in a
    key-value store, and through Google with a verified e-mail. The user
    table is unique on e-mail. */
module UserService {
  import opened Errors
  import CrudBase

  /** `MAX_USERNAME_LENGTH` of the configured rules. */
  const MaxUsernameLength: nat := 50

  /** The prefix under which a confirmation code is stored for an e-mail. */
  const CodePrefix: string := "confirmation_code:"

  /** A stored user; a Google-registered one has no password and carries
      the provider's account id. */
  datatype User = User(email: string, password: Option<string>, name: string, identityProviderId: Option<string>)

  /** The registration form: the user's fields and the code they received. */
  datatype UserIn = UserIn(email: string, password: string, name: string, confirmationCode: int)

  /** What Google reports about the account. */
  datatype GoogleUserInfo = GoogleUserInfo(id: string, name: string, email: string, emailVerified: bool)

  /** The user table and the key-value store holding the pending codes. */
  datatype Accounts = Accounts(users: seq<User>, codes: map<string, int>)

  function Email(u: User): string
  {
    u.email
  }

  /** The user table holds at most one user per e-mail. */
  predicate Valid(a: Accounts)
  {
    CrudBase.UniqueKeys(a.users, Email)
  }

  predicate Registered(a: Accounts, email: string)
  {
    exists u | u in a.users :: u.email == email
  }

  /** The store key of an e-mail's confirmation code. */
  function CodeKey(email: string): (k: string)
    ensures |k| == |CodePrefix| + |email|
    ensures k[..|CodePrefix|] == CodePrefix && k[|CodePrefix|..] == email
  {
    CodePrefix + email
  }

  /** Different e-mails never share a code slot. */
  lemma CodeKeyInjective(e1: string, e2: string)
    ensures CodeKey(e1) == CodeKey(e2) <==> e1 == e2
  {
    if CodeKey(e1) == CodeKey(e2) {
      assert e1 == CodeKey(e1)[|CodePrefix|..];
    }
  }

  /** The first `n` characters, as a Python slice `s[:n]` takes them. */
  function Truncate(s: string, n: nat): (r: string)
    ensures |r| == if |s| <= n then |s| else n
    ensures r == s[..|r|]
  {
    if |s| <= n then s else s[..n]
  }

  /** `register_user`: without a stored code, or with a different one, the
      request is refused and the store kept; with the right code the code is
      consumed and the user created from the form without its code. The
      creation reports None, and still consumes the code, when the e-mail is
      already registered. */
  function RegisterUser(a: Accounts, data: UserIn): (r: Result<(Accounts, Option<User>)>)
    ensures CodeKey(data.email) !in a.codes ==> r == Err(InvalidConfirmationCode)
    ensures (CodeKey(data.email) in a.codes && a.codes[CodeKey(data.email)] != data.confirmationCode)
              ==> r == Err(InvalidConfirmationCode)
    ensures r.Ok? <==> CodeKey(data.email) in a.codes && a.codes[CodeKey(data.email)] == data.confirmationCode
    ensures r.Ok? ==> CodeKey(data.email) !in r.value.0.codes
    ensures r.Ok? ==> forall e | e != data.email ::
              (CodeKey(e) in r.value.0.codes <==> CodeKey(e) in a.codes) &&
              (CodeKey(e) in a.codes ==> r.value.0.codes[CodeKey(e)] == a.codes[CodeKey(e)])
    ensures r.Ok? && Registered(a, data.email) ==> r.value.1.None? && r.value.0.users == a.users
    ensures (r.Ok? && !Registered(a, data.email)) ==>
              && r.value.1 == Some(User(data.email, Some(data.password), data.name, None))
              && r.value.0.users == a.users + [r.value.1.value]
    ensures r.Ok? && Valid(a) ==> Valid(r.value.0)
  {
    var key := CodeKey(data.email);
    if key !in a.codes then Err(InvalidConfirmationCode)
    else if a.codes[key] != data.confirmationCode then Err(InvalidConfirmationCode)
    else
      var codes := a.codes - {key};
      var created := CrudBase.Create(a.users, Email, User(data.email, Some(data.password), data.name, None));
      OtherCodesKept(a.codes, data.email);
      Ok((Accounts(created.0, codes), created.1))
  }

  /** Removing one e-mail's code keeps every other e-mail's code. */
  lemma OtherCodesKept(codes: map<string, int>, email: string)
    ensures forall e | e != email ::
              (CodeKey(e) in codes - {CodeKey(email)} <==> CodeKey(e) in codes)
  {
    forall e | e != email
      ensures CodeKey(e) != CodeKey(email)
    {
      CodeKeyInjective(e, email);
    }
  }

  /** A confirmation code registers at most once: repeating the same request
      after a success is refused. */
  lemma CodeIsOneShot(a: Accounts, data: UserIn)
    requires RegisterUser(a, data).Ok?
    ensures RegisterUser(RegisterUser(a, data).value.0, data) == Err(InvalidConfirmationCode)
  {
  }

  /** `register_user_using_google`: an e-mail already registered is refused,
      then an unverified one; otherwise a user without a password is created
      with the name cut to the maximum length. */
  function RegisterUserUsingGoogle(a: Accounts, info: GoogleUserInfo): (r: Result<(Accounts, User)>)
    ensures Registered(a, info.email) ==> r == Err(ResourceAlreadyExists)
    ensures !Registered(a, info.email) && !info.emailVerified ==> r == Err(EmailNotConfirmed)
    ensures r.Ok? <==> !Registered(a, info.email) && info.emailVerified
    ensures r.Ok? ==>
              && r.value.1.email == info.email
              && r.value.1.password.None?
              && r.value.1.identityProviderId == Some(info.id)
              && |r.value.1.name| == (if |info.name| <= MaxUsernameLength then |info.name| else MaxUsernameLength)
              && r.value.1.name == info.name[..|r.value.1.name|]
              && r.value.0 == Accounts(a.users + [r.value.1], a.codes)
    ensures r.Ok? && Valid(a) ==> Valid(r.value.0)
  {
    if Registered(a, info.email) then Err(ResourceAlreadyExists)
    else if !info.emailVerified then Err(EmailNotConfirmed)
    else
      var user := User(info.email, None, Truncate(info.name, MaxUsernameLength), Some(info.id));
      var created := CrudBase.Create(a.users, Email, user);
      Ok((Accounts(created.0, a.codes), user))
  }

  /** Registering through Google twice with the same account is refused the
      second time, so the table never holds two users with one e-mail. */
  lemma GoogleRegistrationOnce(a: Accounts, info: GoogleUserInfo)
    requires RegisterUserUsingGoogle(a, info).Ok?
    ensures RegisterUserUsingGoogle(RegisterUserUsingGoogle(a, info).value.0, info) == Err(ResourceAlreadyExists)
  {
    var a' := RegisterUserUsingGoogle(a, info).value.0;
    assert a'.users[|a.users|] in a'.users;
  }
}
